=== FILE: README.md ===
# go-ripgrep core, modelled in Dafny

go-ripgrep is a small recursive grep. It walks a directory tree and prints
every line that contains a literal pattern, optionally ignoring case, with
the filename, the line number and the matches coloured. The repository
holds three near-copies of the program at different stages:

- `main.go`: the walk skips hidden entries and files with a binary
  extension, and sniffs each file for a null byte before scanning it.
- `main_v2.go`: adds a built-in list of directories that are never
  entered, and a reduced reader and matcher for the search root's
  `.gitignore`.
- `rg.go`: an older version. It has no extension test, no sniff and no
  line truncation, and has its own case-insensitive highlighter that
  rewrites its result in place.

This project models the pure decision and text logic of all three and
proves properties about it. The modules follow the programs' functions:

| module | file | what it models |
|---|---|---|
| `Strings` | strings.dfy | the parts of Go's `strings` and `fmt` the core calls: Index, Contains, ToLower (ASCII), TrimSpace, Split/Join, ReplaceAll, `%d` |
| `Markers` | markers.dfy | the ANSI colour markers; highlighted output as a sequence of plain and marked pieces; deleting markers |
| `Matcher` | matcher.dfy | `matchesPattern` and the 32768-byte line truncation |
| `Paths` | paths.dfy | `filepath.Base`, `Ext` and `Join` on `/`-separated paths; `isHidden` |
| `Binary` | binary.dfy | `isBinaryFile` (the null-byte sniff of the first read) and `isBinaryFileByExtension` |
| `Options` | options.dfy | the search settings and an `Option` type |
| `Highlight` | highlight.dfy | `highlightMatches` and `highlightIgnoreCase` of main.go / main_v2.go |
| `RgHighlight` | rg_highlight.dfy | rg.go's `highlightMatches`, including its in-place rewrite loop, which may panic |
| `Printer` | printer.dfy | `printMatch`: the join form of main.go / main_v2.go and the builder form of rg.go |
| `Scan` | scan.dfy | `searchInFile` as a function of the file's lines: numbering, truncation, sniff, the scanner error |
| `Ignore` | ignore.dfy | `loadGitignoreFilter`, `shouldIgnore`, `matchGitignorePattern`, `matchWildcard`, `shouldIgnoreDirectory` |
| `Walk` | walk.dfy | `search`: `filepath.Walk` over an abstract tree with each program's callback (`Variant`) |

Strings are `seq<char>` with one character per byte, and lower-casing is
ASCII-only, so it never changes a length. The colour markers are the real
escape sequences: rg.go's fault depends on a wrapped span growing by exactly
nine characters. The directory tree is a datatype whose children come in the
lexical order `filepath.Walk` visits them. A file carries what opening it
gives: its bytes, the lines the scanner produced and whether the scanner
stopped on an error. The walk callback is a `WalkFunc` value: the answer for a
directory (skip it?), the answer for a file (scan it?) and the file search.
The walk's own lemmas hold for every `WalkFunc`, and `Walk.Callback` builds the
callback of each program.

Three consequences of the code worth knowing:

- Lines longer than 32768 bytes are truncated *before* they are matched, so
  a match past the limit is missed and the marker text itself can match
  (`Matcher.LateMatchIsMissed`, `Matcher.MarkerTextIsMatched`).
- An inaccessible search root is not an error. The walk callback returns
  nil for every Lstat error, the root's included (main.go:76-78).
- A search rooted at `.` without `--hidden` finds nothing. The root's base
  name `.` counts as hidden, so the root is pruned
  (`Walk.DotRootFindsNothing`).

## Model

Functions whose result is only computed (`Highlight.HighlightIgnoreCase`,
`Highlight.HighlightMatches`, `Paths.IsHidden`, `Ignore.MatchWildcard`,
`Ignore.MatchGitignorePattern`, `Walk.PruneDir`, `Walk.ScanFile`,
`Walk.Search`) have no row of their own: the lemma rows about them state
what they compute. Rows whose third column begins "one step:" unfold a
definition once; they map a turn of the Go loop or a callback answer onto
the model, and the properties proper are stated by the rows that follow
them.

| member | source | states |
|---|---|---|
| Matcher.MatchesPattern | main_v2.go:316-328 | true exactly when the pattern is a contiguous substring of the line, both lower-cased first under ignore-case; the fixed-strings flag changes nothing |
| Matcher.EmptyPatternMatchesAll | main_v2.go:316-328 | the empty pattern matches every line |
| Matcher.Truncate | main_v2.go:304-306 | a line of at most 32768 bytes is kept; a longer one becomes its first 32768 bytes followed by the marker text "... [line truncated]" |
| Matcher.TruncationKeepsEarlyMatch | main_v2.go:304-308 | an occurrence that ends within the first 32768 bytes still matches after truncation |
| Matcher.LateMatchIsMissed | main.go:131-136 | for every line longer than 32768 bytes: a pattern that needs a character found neither in the first 32768 bytes nor in the marker text does not match once truncated, wherever the line holds it |
| Matcher.MarkerTextIsMatched | main.go:131-136 | for every line longer than 32768 bytes: every pattern occurring in the marker text "... [line truncated]" matches once truncated, whatever the line holds |
| Strings.IndexSpec | main_v2.go:392 | strings.Index returns the first position at which the pattern occurs, and -1 exactly when it occurs nowhere |
| Strings.IndexOfSuffix | main_v2.go:392-399 | searching `lowerLine[lastIndex:]` and adding `lastIndex` is the first occurrence at or after `lastIndex` |
| Strings.Contains | main_v2.go:323-327 | strings.Contains holds exactly when the text has the pattern as a contiguous substring |
| Strings.TrimSpace | main_v2.go:156 | the result is the line with its leading and trailing ASCII white space (space, tab, newline, carriage return, vertical tab, form feed) removed; it is empty exactly when the line is all white space |
| Strings.Split | main_v2.go:239 | splitting at a character gives one more piece than there are separators, none of them containing it |
| Strings.SplitJoin | main_v2.go:239 | joining the pieces of a split with the separator gives back the text |
| Strings.Decimal | main.go:173 | `%d` of a line number is a non-empty run of digits without a leading zero |
| Strings.DecimalRoundTrip | main.go:173 | reading the digits back gives the line number |
| Strings.LowerIdempotent | main_v2.go:385-386 | lower-casing a lower-cased text changes nothing |
| Strings.LowerAppend | main_v2.go:385-386 | lower-casing works piece by piece: the lower-cased concatenation is the concatenation of the lower-cased pieces |
| Paths.Base | main_v2.go:421 | filepath.Base: "." for the empty path; "/" exactly for a path of slashes only; otherwise the last element: a suffix of the path without its trailing slashes, holding no slash and preceded by a slash or nothing |
| Paths.BaseOfJoin | main_v2.go:93 | an entry the walk reaches by joining a child name has that name as its base |
| Paths.Ext | main_v2.go:450 | filepath.Ext is the suffix from the last dot of the final element, or empty when that element has no dot |
| Paths.ExtOfSuffix | main_v2.go:450 | only the final extension counts: whatever precedes ".gz", the extension is ".gz" |
| Paths.ExtOfLower | main_v2.go:450 | the extension of the lower-cased path is the lower-cased extension |
| Binary.FirstRead | main_v2.go:433-437 | the one Read returns between 1 and 512 leading bytes of a non-empty file, and fails (io.EOF) exactly on an empty one |
| Binary.HasNullByte | main_v2.go:440-445 | the scan of the bytes read finds a zero byte exactly when one is there |
| Binary.SniffOfContent | main_v2.go:432-446 | a file counts as binary exactly when a null byte sits in its first 512 bytes; an empty file never does |
| Binary.ExtensionTestIgnoresCase | main_v2.go:449-467 | the extension test is blind to letter case: ".PNG" counts like ".png" |
| Binary.FinalExtensionDecides | main_v2.go:449-467 | a path is judged by its final extension alone, so "x.tar.gz" is binary and "x.gz.txt" is not |
| Highlight.MarkLoopStep | main_v2.go:392-414 | one step: a turn that finds a match in range writes the text before it, then the span of the original line in Red and Reset, and continues after the span |
| Highlight.MarkLoopEnd | main_v2.go:393-405 | one step: a turn without a match, or with one that would overrun the line, writes the rest of the line and ends |
| Highlight.OverrunUnreachable | main_v2.go:399-405 | with length-preserving lower-casing, a match found in the lowered line always fits in the line, so the overrun exit is never taken |
| Highlight.MarkLoopText | main_v2.go:391-415 | the loop's pieces, with the emphasis deleted, are exactly the rest of the line |
| Highlight.MarkLoopMarked | main_v2.go:408-412 | every wrapped span, lower-cased under ignore-case, equals the lower-cased pattern |
| Highlight.MarkLoopPlain | main_v2.go:392-408 | no unwrapped stretch contains a match |
| Highlight.MarkLoopLower | main_v2.go:385-414 | the loop cuts the line where it would cut the lower-cased line; only the casing of the copied text differs |
| Highlight.ReplaceAllMarks | main_v2.go:376 | case-sensitive ReplaceAll with Red + pattern + Reset writes the same pieces as the loop searching the line itself |
| Highlight.HighlightMatchesPieces | main_v2.go:365-377 | for a non-empty pattern both modes write those pieces, whatever the fixed-strings flag |
| Highlight.HighlightMatchesSound | main_v2.go:365-418 | an empty pattern leaves the line unchanged; deleting the markers gives back the line; each wrapped span is a stretch of the line equal to the pattern (after lower-casing under ignore-case), in its original casing; no unwrapped stretch holds a match |
| Highlight.IgnoreCaseFollowsLowered | main_v2.go:380-418 | lower-casing the case-insensitive highlight gives the case-sensitive highlight of the lower-cased line and pattern |
| RgHighlight.RgHighlightMatches | rg.go:168-220 | both fixed-strings branches behave alike: ignore-case runs the rewrite loop, otherwise strings.ReplaceAll wraps every occurrence |
| RgHighlight.RgLoopStep | rg.go:180-189 | one step: a turn that finds a match replaces it in the result by the span of the unmodified line at the same offset, wrapped, and searches again past the inserted text |
| RgHighlight.RgLoopDone | rg.go:180-183 | one step: a search that finds nothing returns the result as rewritten so far |
| RgHighlight.RgLoopPanic | rg.go:185 | a match whose offset runs past the end of the unmodified line makes the slice panic |
| RgHighlight.RgEmptyPatternPanics | rg.go:172-191 | with an empty pattern under ignore-case rg.go panics on every line, where main_v2.go returns the line |
| RgHighlight.RgCaseSensitiveAgrees | rg.go:193 | in case-sensitive mode rg.go writes what main_v2.go writes for a non-empty pattern; for the empty one ReplaceAll puts Red + Reset around every byte (Go: every UTF-8 sequence) |
| RgHighlight.RgSingleMatchAgrees | rg.go:172-191 | when the lowered pattern occurs once in the lowered line, rg.go writes what main_v2.go writes: that span, in its original casing, in Red and Reset |
| RgHighlight.TwoLeadingMatches | main_v2.go:380-418 | main_v2.go marks both of two leading "a"s |
| RgHighlight.RgTwoLeadingMatches | rg.go:184-189 | on two leading "a"s, rg.go panics when fewer than nine characters follow, and otherwise wraps the character eight places after them instead of the second "a" |
| RgHighlight.RgSecondMatchExamples | rg.go:184-189 | "aa" makes rg.go panic, and "aabbbbbbbbb" gets a "b" wrapped; main_v2.go wraps both "a"s in each |
| Printer.Parts | main.go:159-177 | one segment for the filename and one for the line number, each only when asked for: the filename first, in Purple, and the decimal line number last, in Green, each wrapped only when colour is on |
| Printer.PrintMatch | main.go:158-191 | the output ends with the displayed line and a newline |
| Printer.PrintMatchIsPrefixed | main.go:186-190 | joining the segments with ":" and adding ":" before the line is the same as writing each segment followed by ":" |
| Printer.PrintMatchPlain | main.go:158-191 | with colour off the output is the line alone, or filename and decimal line number as asked, each followed by ":"; pattern and matching flags play no part |
| Printer.PrintMatchColorStrips | main.go:163-183 | colour only adds markers: deleting them from the coloured output gives the uncoloured output |
| Printer.RgPrintMatch | rg.go:135-166 | with colour off rg.go never panics, and what it writes starts with each asked-for segment followed by ":" |
| Printer.RgPrintMatchAgrees | rg.go:135-166 | rg.go prints what main.go prints whenever the two highlighters agree: always with colour off, and with colour on for a non-empty case-sensitive pattern |
| Output.RgOutput | rg.go:109-116 | rg.go prints the walk's reports in order, each as printMatch renders it, up to the first whose printing panics (rg.go:185); it stops early exactly when one does |
| Output.RgCrashCutsOff | rg.go:113-115 | no report at or after the first one whose printing panics is printed |
| Output.RgCrashHidesLater | rg.go:113-115 | once the run has stopped, later reports (later lines, later files) change nothing in the output |
| Output.RgPlainOutputComplete | rg.go:113-115 | with colour off nothing panics, and every report is printed as main.go prints it |
| Scan.ScanFrom | main.go:125-139 | every hit is a selected line, numbered from 1, with the text it was matched as; the numbers increase strictly |
| Scan.ScanFromComplete | main.go:125-139 | no selected line is left out |
| Scan.ScanLinesSound | main.go:125-139 | every hit is a line of the file whose text matches |
| Scan.ScanLinesExact | main.go:125-139 | line n is reported, with the text it was matched as, exactly when that text matches; numbers count every line and increase |
| Scan.SearchInFile | main.go:104-142 | an unopenable or binary file gives no hits and no error; otherwise the hits are those of the scan with truncation and the error is the scanner's |
| Scan.RgSearchInFile | rg.go:99-119 | no sniff and no truncation: an unopenable file gives nothing, and any other file, binary or not, gives the hits of the scan without truncation and the scanner's error |
| Scan.RgScansBinaryContent | rg.go:99-119 | a matching line of a file with a null byte in its first 512 bytes is reported by rg.go and by neither main.go nor main_v2.go |
| Scan.ShortLinesScanAlike | main.go:131-134 | when no line exceeds the limit, main.go's scan and rg.go's agree |
| Scan.OneLineScan | main.go:125-139 | a one-line file yields that line as number 1 exactly when its text matches |
| Scan.LongLineScans | main.go:131-136 | for every matching line longer than 32768 bytes whose match needs a character absent from its first 32768 bytes and from the marker text, main.go's scan reports nothing and rg.go's reports the line as line 1 |
| Scan.BinaryFileNotScanned | main.go:105-114 | a file with a null byte in its first 512 bytes is not scanned, and an unopenable file is passed over without an error |
| Ignore.ParseIgnoreLines | main_v2.go:154-164 | every rule is a trimmed, non-blank, non-comment line, and there are no more rules than lines |
| Ignore.ParseIgnoreLinesAppend | main_v2.go:155-164 | the rules of two stretches of a file are those of the first, then those of the second, in file order |
| Ignore.ParseIgnoreLinesMembers | main_v2.go:155-164 | a rule is loaded exactly when it is the trimmed form of some line and is neither blank nor a comment |
| Ignore.LoadGitignoreFilter | main_v2.go:139-167 | the filter's root is the search path; a missing file gives no rules and no error; otherwise the rules are the file's trimmed, non-blank, non-`#` lines in order (ParseIgnoreLines) and the error is the scanner's |
| Ignore.ActiveFilter | main_v2.go:83-91 | a filter is used exactly when the ignore file is respected and loading it reported no error, and it is then the loaded filter, holding the parsed rules of the file (none for a missing file) |
| Ignore.AnyRuleMatches | main_v2.go:184-190 | true exactly when some rule matches the path |
| Ignore.ShouldIgnore | main_v2.go:170-191 | false without a filter or rules; otherwise true exactly when some rule matches the relative path |
| Ignore.ShouldIgnoreOrderFree | main_v2.go:184-190 | any rearrangement of the rules ignores the same paths |
| Ignore.LeadingSlashStripped | main_v2.go:196 | one leading "/" is dropped: "/" followed by a rule without one behaves as that rule |
| Ignore.NegatedRuleNeverMatches | main_v2.go:199-201 | a rule starting with "!" matches nothing |
| Ignore.DirectoryRuleIsContainment | main_v2.go:204-208 | a rule ending in "/" matches exactly the paths that contain the rest of it |
| Ignore.EmptyRuleMatchesAll | main_v2.go:196-218 | a rule that is empty once its leading "/" is gone, such as "/", matches every path |
| Ignore.PlainRuleIsContainment | main_v2.go:216-222 | a rule without "*" matches a non-empty path exactly when the path contains it; the base-name test adds nothing |
| Ignore.WildcardRuleIsWildcard | main_v2.go:211-213 | a rule containing "*" is decided by matchWildcard on the whole relative path |
| Ignore.WildcardOneStar | main_v2.go:226-245 | a pattern with one "*" matches exactly the texts that start with what precedes it and end with what follows it |
| Ignore.WildcardManyStars | main_v2.go:239-244 | a pattern with two or more stars that does not start "*." matches nothing |
| Ignore.StarDotIsSuffix | main_v2.go:233-236 | a pattern starting "*." matches exactly the texts ending in the pattern minus its first star |
| Ignore.ExtensionRuleExamples | main_v2.go:233-236 | "*.log" matches "build/output.log" and not "output.logx" |
| Ignore.ShouldIgnoreDirectory | main_v2.go:248-274 | true exactly when the base name is in the built-in list; the search root plays no part |
| Walk.SearchFile | main_v2.go:134 | an unopenable file gives nothing, searchInFile ends on an error only on a scanner error, and every hit of each program's searchInFile matches |
| Walk.DecisionsCompared | main_v2.go:99-131 | main_v2.go prunes what main.go prunes plus denylisted and ignored directories, and scans what main.go scans minus ignored files; rg.go prunes like main.go and scans also binary extensions |
| Walk.WalkDir | main_v2.go:99-116 | one step: a pruned directory reports nothing; an entered one reports what its children do |
| Walk.WalkFile | main_v2.go:119-134 | one step: a skipped file reports nothing; a scanned one reports searchInFile's hits and error |
| Walk.WalkChild | main.go:100 | one step: an error from a child ends the walk of its siblings; otherwise its reports come before theirs |
| Walk.PrunedDirFindsNothing | main_v2.go:99-116 | one step: a directory the WalkFunc answers SkipDir for reports nothing and no error |
| Walk.EnteredDirWalksChildren | main_v2.go:115 | one step: a directory the WalkFunc lets through is walked child by child |
| Walk.SkippedFileFindsNothing | main_v2.go:118-131 | one step: a file the WalkFunc passes over reports nothing and no error |
| Walk.ScannedFileReports | main_v2.go:134 | one step: a scanned file reports its search's hits, in order, under its own path |
| Walk.DotIsHidden | main_v2.go:420-423 | the base name of "." and of "./" starts with a dot |
| Walk.DotRootFindsNothing | main_v2.go:106 | every program rooted at "." without --hidden finds nothing and reports no error |
| Walk.DenylistedRootFindsNothing | main_v2.go:101-103 | main_v2.go finds nothing under a root named like "build", while main.go walks into a visible one |
| Walk.VisibleRootEntered | main.go:81-86 | main.go enters a root directory that is visible or searched with --hidden, whatever its name |
| Walk.SlashRuleIgnoresRoot | main_v2.go:170-191 | a "/" line in the ignore file makes shouldIgnore hold for the root, whose relative path is "." |
| Walk.SlashRuleHidesEverything | main_v2.go:111-126 | so main_v2.go reports nothing at all |
| Walk.RgReportsFileRoot | rg.go:89-95 | rg.go reports the matching line of a visible one-line file root |
| Walk.RgSearchOneLine | rg.go:99-119 | rg.go's searchInFile over a one-line file whose line matches gives that line as line 1 and no error |
| Walk.BinaryFileRootSkipped | main.go:95-97 | main.go and main_v2.go skip a file root with a binary extension |
| Walk.RgScansBinaryExtension | rg.go:89-95 | a visible file with a binary extension has its matching line reported by rg.go alone |
| Walk.CallbackFailsOnScanErrorOnly | main.go:104-141 | each program's searchInFile returns an error only when the scanner stops on one: an unopenable or binary file gives none |
| Walk.CleanTreeNeverFails | main.go:76-78 | unreadable entries and unopenable files are passed over: a tree without scanner errors never ends the walk on an error |
| Walk.CleanChildrenNeverFail | main.go:76-78 | the same for the children of a directory |
| Walk.FailureEndsWalk | main.go:100 | a scanner error ends the walk: it reports the error, and the reports are exactly those of the earlier siblings, in order, followed by the failing child's |
| Walk.FailurePropagates | main.go:100 | an error that ends the walk of later siblings ends the walk from an earlier one too, after the reports of the siblings between, when none of those fails |
| Walk.FailurePassesBack | main.go:100 | a child that does not fail passes on its later siblings' error, its own reports first |
| Walk.FailureHere | main.go:100 | a child whose walk ends on an error ends the walk of the children from it on, with its own reports and nothing after |
| Walk.HitsFromScan | main.go:74-102 | every line of Hits (each scanned file's own search hits, under its own path, in walk order) comes from a path the WalkFunc chose to scan and is a hit of the WalkFunc's search of some file content (which content is pinned by Hits and `Walk.WalkSound`) |
| Walk.CallbackAdmits | main.go:83-100 | a line the WalkFunc of a program scanned the file of and its searchInFile reported is one that program admits and that matches |
| Walk.WalkSound | main.go:74-102 | for any WalkFunc, the walk reports Hits in walk order up to the first error: always a prefix of Hits, and all of it when no search fails |
| Walk.ChildrenWalkSound | main.go:74-102 | the same for the children of a directory |
| Walk.SearchSound | main_v2.go:81-136 | a whole search reports a prefix of its program's Hits, all of them when it ends without an error, and only matching lines of files the program admits (visible unless --hidden; of a non-binary extension unless rg.go) |
| Walk.CleanSearchComplete | main.go:74-102 | over a tree without scanner errors, a search ends without an error and reports every hit of every file its program scans, in walk order |

## Left out

- Flag parsing, the usage message, exit codes, `isTerminal` and the unused `noHeading` flag. Colour comes in as a plain boolean setting.
- The filesystem: `filepath.Walk`'s enumeration, `os.Open`, `Seek` and `Read`, and the read of the ignore file. The tree, the file contents and the ignore file's lines are inputs. Symbolic links are entries like any other.
- How `bufio.Scanner` cuts bytes into lines: carriage returns, and the 64 KB buffer with its 10 MB token limit. A file carries its lines and a flag saying whether the scan stopped on an error.
- Scan.LongLineScans: one `FileData` serves all three programs, but their token limits differ. rg.go keeps bufio's default 64 KB limit (rg.go:106), while main.go and main_v2.go raise it to 10 MB (main.go:123, main_v2.go:295). A line over 64 KB therefore stops rg.go's scan with an error where the others read it; the model does not derive that error from the line's length.
- Strings.TrimSpace: trims the six ASCII white-space bytes only. `strings.TrimSpace` also trims multi-byte UTF-8 white space such as U+0085 and U+00A0; since a character here is one byte, those sequences are not recognised and stay in the rule.
- RgHighlight.RgCaseSensitiveAgrees: for the empty pattern, `Strings.ReplaceAll` inserts Red + Reset around every byte, while Go's `strings.ReplaceAll` steps over whole UTF-8 sequences. A line of k runes gets k + 1 insertions in Go, so for a line with multi-byte characters `RgHighlight.RgHighlightMatches`, `Printer.RgPrintMatch` and `Output.RgOutput` give more insertions than rg.go writes (rg.go:193 with colour on, case-sensitive, pattern ""). The two agree on ASCII lines.
- Unicode case folding. `strings.ToLower` is modelled on ASCII, where it keeps lengths. rg.go's offset fault is modelled under that assumption; non-ASCII text can shift offsets further.
- `filepath.Rel` failing, and the full cleaning of `filepath.Join`. Paths are `/`-separated; `Join` handles a "." or empty directory and trailing slashes. `ToSlash` is the identity.
- Writing to standard output. A walk result lists each reported line with its path; the text printed for it is what `Printer.PrintMatch` / `Printer.RgPrintMatch` give. For rg.go, whose printMatch runs inside the scan loop, `Output.RgOutput` gives what is printed: the reports up to the first whose highlighting panics, after which the process stops; `Walk.Search` and `Scan.RgSearchInFile` still list the later hits, as what the walk would report had it not stopped.
- Walk.SearchSound: the per-line `Reported` clause does not state that main_v2.go's reported files pass the ignore filter, because a reported line carries its path but not its relative path; the prefix-of-Hits clauses do, since Hits takes each file's own relative path.
- Printer.PrintMatch: its contract states only the suffix; `Printer.PrintMatchPlain` and `Printer.PrintMatchIsPrefixed` state the whole output.

## Findings

| source | as written | input that shows it | evidently intended | confidence | as-written member | corrected member |
|---|---|---|---|---|---|---|
| rg.go:184-189 | after the first wrap, the span to wrap is sliced out of the unmodified line at an offset found in the rewritten, nine-characters-longer result | ignore-case highlighting of "a" in "aa" slices past the end of the line and panics; in "aabbbbbbbbb" it wraps a "b" instead of the second "a" | every occurrence wrapped in its original casing, as main_v2.go's highlightIgnoreCase does | high, not executed | RgHighlight.RgTwoLeadingMatches | RgHighlight.TwoLeadingMatches |
| rg.go:172-191 | an empty pattern is not handled: the search finds it at once on every turn, nine characters are inserted each time, and the slice of the line eventually runs past its end | any line, pattern "", ignore-case, colour on | the line returned unchanged, as main_v2.go:366-368 does | medium, not executed | RgHighlight.RgEmptyPatternPanics | Highlight.HighlightMatchesSound |

=== FILE: binary.dfy ===
/**
 The binary-file classifier: a null-byte sniff of the first read and a
 fixed table of extensions.
 */
module Binary {
  import opened Strings
  import opened Paths

  newtype byte = x: int | 0 <= x < 256

  /** How many bytes the sniff asks the first read for. */
  const SniffLen: nat := 512

  /** The result of the one file.Read call: the bytes it returned and whether
      it returned an error (io.EOF on an empty file counts). */
  datatype ReadOutcome = ReadOutcome(data: seq<byte>, failed: bool)

  /** What a single Read of a regular file holding `content` gives. */
  function FirstRead(content: seq<byte>): (r: ReadOutcome)
    ensures r.failed <==> content == []
    ensures !r.failed ==> 0 < |r.data| <= SniffLen && r.data <= content
  {
    if content == [] then ReadOutcome([], true)
    else ReadOutcome(content[..if |content| < SniffLen then |content| else SniffLen], false)
  }

  function HasNullByte(bytes: seq<byte>): (r: bool)
    ensures r <==> exists i :: 0 <= i < |bytes| && bytes[i] == 0
  {
    if bytes == [] then false else bytes[0] == 0 || HasNullByte(bytes[1..])
  }

  /** isBinaryFile: a null byte among the bytes the first read returned.  Only
      the first SniffLen bytes are looked at, since Read fills a buffer of
      that size; a failed read is "not binary". */
  predicate IsBinaryFile(read: ReadOutcome)
  {
    !read.failed && HasNullByte(read.data[..if |read.data| < SniffLen then |read.data| else SniffLen])
  }

  /** For a regular file: binary exactly when a null byte sits in its first
      SniffLen bytes; an empty file is never binary. */
  lemma SniffOfContent(content: seq<byte>)
    ensures IsBinaryFile(FirstRead(content))
      <==> exists i :: 0 <= i < |content| && i < SniffLen && content[i] == 0
    ensures content == [] ==> !IsBinaryFile(FirstRead(content))
  {
    var r := FirstRead(content);
    if content != [] {
      var n := if |content| < SniffLen then |content| else SniffLen;
      assert r.data == content[..n];
      assert r.data[..n] == content[..n];
      if exists i :: 0 <= i < |content| && i < SniffLen && content[i] == 0 {
        var i :| 0 <= i < |content| && i < SniffLen && content[i] == 0;
        assert r.data[..n][i] == 0;
      }
    }
  }

  /** The extensions isBinaryFileByExtension rejects, compared lower-cased. */
  const BinaryExts: seq<string> := [
    ".exe", ".dll", ".so", ".dylib", ".a", ".o", ".obj",
    ".zip", ".tar", ".gz", ".bz2", ".xz", ".7z", ".rar",
    ".jpg", ".jpeg", ".png", ".gif", ".bmp", ".tiff", ".ico",
    ".mp3", ".mp4", ".avi", ".mkv", ".mov", ".wmv", ".flv",
    ".pdf", ".doc", ".docx", ".xls", ".xlsx", ".ppt", ".pptx",
    ".bin", ".dat", ".db", ".sqlite", ".sqlite3",
    ".pyc", ".class", ".jar"
  ]

  /** isBinaryFileByExtension: the lower-cased final extension is in the table. */
  predicate IsBinaryFileByExtension(path: string)
  {
    ExtInTable(path, BinaryExts)
  }

  predicate ExtInTable(path: string, table: seq<string>)
  {
    Lower(Ext(path)) in table
  }

  /** The test is blind to letter case: "photo.PNG" counts like "photo.png". */
  lemma ExtensionTestIgnoresCase(path: string)
    ensures IsBinaryFileByExtension(path) <==> IsBinaryFileByExtension(Lower(path))
  {
    ExtTableIgnoresCase(path, BinaryExts);
  }

  lemma ExtTableIgnoresCase(path: string, table: seq<string>)
    ensures ExtInTable(path, table) <==> ExtInTable(Lower(path), table)
  {
    ExtOfLower(path);
    LowerIdempotent(Ext(path));
    assert Lower(Ext(Lower(path))) == Lower(Ext(path));
  }

  /** Only the last extension decides: whatever `stem` is, "stem.gz" is judged
      by ".gz" alone, so "x.tar.gz" is binary and "x.gz.txt" is not. */
  lemma FinalExtensionDecides(stem: string, ext: string)
    requires |ext| >= 1 && ext[0] == '.'
    requires '.' !in ext[1..] && '/' !in ext
    ensures IsBinaryFileByExtension(stem + ext) <==> IsBinaryFileByExtension(ext)
  {
    FinalExtensionDecidesIn(stem, ext, BinaryExts);
  }

  lemma FinalExtensionDecidesIn(stem: string, ext: string, table: seq<string>)
    requires |ext| >= 1 && ext[0] == '.'
    requires '.' !in ext[1..] && '/' !in ext
    ensures ExtInTable(stem + ext, table) <==> ExtInTable(ext, table)
  {
    ExtOfSuffix(stem, ext);
    ExtOfSuffix([], ext);
    assert [] + ext == ext;
  }
}

=== FILE: highlight.dfy ===
/**
 The highlighter of main.go and main_v2.go.  Case-sensitive highlighting is
 strings.ReplaceAll of the pattern by Red + pattern + Reset; case-insensitive
 highlighting finds matches in a lower-cased copy of the line and copies the
 matched spans out of the original line, so their casing survives.
 */
module Highlight {
  import opened Strings
  import opened Markers

  /** The builder writes of highlightIgnoreCase's loop from `lastIndex = last`
      on.  `lowerLine` is the copy the loop searches, `lowerPattern` what it
      searches for and `plen` the length of the original pattern, which is
      what the loop advances by and how much it copies out of `line`.  The
      loop's strings.Index of `lowerLine[last:]` plus `last` is IndexFrom
      (lemma IndexOfSuffix). */
  function MarkLoop(line: string, lowerLine: string, lowerPattern: string, plen: nat, last: nat): seq<Piece>
    requires |lowerLine| == |line| && last <= |line| && plen > 0
    decreases |line| - last
  {
    var at := IndexFrom(lowerLine, lowerPattern, last);
    if at == -1 || at + plen > |line| then [Plain(line[last..])]
    else [Plain(line[last..at]), Marked(line[at..at + plen])] + MarkLoop(line, lowerLine, lowerPattern, plen, at + plen)
  }

  /** One turn of the loop that finds a match in range. */
  lemma MarkLoopStep(line: string, lowerLine: string, lowerPattern: string, plen: nat, last: nat, at: nat, next: nat)
    requires |lowerLine| == |line| && last <= |line| && plen > 0
    requires IndexFrom(lowerLine, lowerPattern, last) == at && next == at + plen <= |line|
    ensures last <= at
    ensures MarkLoop(line, lowerLine, lowerPattern, plen, last)
      == [Plain(line[last..at]), Marked(line[at..next])] + MarkLoop(line, lowerLine, lowerPattern, plen, next)
  {
    var ps := MarkLoop(line, lowerLine, lowerPattern, plen, last);
    assert ps == [Plain(line[last..at]), Marked(line[at..next])] + MarkLoop(line, lowerLine, lowerPattern, plen, next);
  }

  /** The turn that ends the loop: no match, or one that would run past the line. */
  lemma MarkLoopEnd(line: string, lowerLine: string, lowerPattern: string, plen: nat, last: nat)
    requires |lowerLine| == |line| && last <= |line| && plen > 0
    requires var at := IndexFrom(lowerLine, lowerPattern, last);
      at == -1 || at + plen > |line|
    ensures MarkLoop(line, lowerLine, lowerPattern, plen, last) == [Plain(line[last..])]
  {
    var ps := MarkLoop(line, lowerLine, lowerPattern, plen, last);
    assert ps == [Plain(line[last..])];
  }

  /** With length-preserving lower-casing, a match found in the lowered
      line always fits in the original line, so the loop's overrun exit is
      never taken; every other turn moves `last` on by the pattern's length. */
  lemma OverrunUnreachable(line: string, pattern: string, last: nat)
    requires |pattern| > 0 && last <= |line|
    ensures var at := IndexFrom(Lower(line), Lower(pattern), last);
      at == -1 || (last <= at && at + |pattern| <= |line|)
  {
  }

  /** highlightIgnoreCase: an empty line or pattern is returned as it is. */
  function HighlightIgnoreCase(line: string, pattern: string): string
  {
    if |line| == 0 || |pattern| == 0 then line
    else Render(MarkLoop(line, Lower(line), Lower(pattern), |pattern|, 0))
  }

  /** highlightMatches of main.go / main_v2.go; `fixedStrings` is not consulted. */
  function HighlightMatches(line: string, pattern: string, fixedStrings: bool, ignoreCase: bool): string
  {
    if |pattern| == 0 then line
    else if ignoreCase then HighlightIgnoreCase(line, pattern)
    else ReplaceAll(line, pattern, Red + pattern + Reset)
  }

  /** The pieces either highlighter writes for a non-empty pattern: the
      matching is done on `Fold`ed copies, the text comes from `line`. */
  function Pieces(line: string, pattern: string, ignoreCase: bool): seq<Piece>
    requires |pattern| > 0
  {
    MarkLoop(line, Fold(line, ignoreCase), Fold(pattern, ignoreCase), |pattern|, 0)
  }

  lemma UnmarkedPair(plain: string, marked: string)
    ensures Unmarked([Plain(plain), Marked(marked)]) == plain + marked
  {
    var ps := [Plain(plain), Marked(marked)];
    assert ps[1..] == [Marked(marked)];
    assert ps[1..][1..] == [];
    assert Unmarked(ps[1..]) == marked + Unmarked([]);
  }

  lemma RenderPair(plain: string, marked: string)
    ensures Render([Plain(plain), Marked(marked)]) == plain + (Red + marked + Reset)
  {
    var ps := [Plain(plain), Marked(marked)];
    assert ps[1..] == [Marked(marked)];
    assert ps[1..][1..] == [];
    assert Render(ps[1..]) == Red + marked + Reset + Render([]);
  }

  /** Deleting the emphasis from the loop's pieces gives back the rest of
      the line, whatever copy the loop searches. */
  lemma {:induction false} MarkLoopText(line: string, lowerLine: string, lowerPattern: string, plen: nat, last: nat)
    requires |lowerLine| == |line| && last <= |line| && plen > 0
    ensures Unmarked(MarkLoop(line, lowerLine, lowerPattern, plen, last)) == line[last..]
    decreases |line| - last
  {
    var at := IndexFrom(lowerLine, lowerPattern, last);
    if at == -1 || at + plen > |line| {
      MarkLoopEnd(line, lowerLine, lowerPattern, plen, last);
      assert Unmarked([Plain(line[last..])]) == line[last..] + Unmarked([]);
    } else {
      var next: nat := at + plen;
      MarkLoopStep(line, lowerLine, lowerPattern, plen, last, at, next);
      var rest := MarkLoop(line, lowerLine, lowerPattern, plen, next);
      MarkLoopText(line, lowerLine, lowerPattern, plen, next);
      assert Unmarked(rest) == line[next..];
      var front := [Plain(line[last..at]), Marked(line[at..next])];
      UnmarkedAppend(front, rest);
      UnmarkedPair(line[last..at], line[at..next]);
      SuffixSplit(line, last, at, next);
      assert Unmarked(front + rest) == line[last..at] + line[at..next] + line[next..];
      assert MarkLoop(line, lowerLine, lowerPattern, plen, last) == front + rest;
    }
  }

  /** Every marked piece, folded, is the folded pattern. */
  predicate MarkedAre(ps: seq<Piece>, foldPattern: string, ignoreCase: bool)
  {
    forall k :: 0 <= k < |ps| && ps[k].Marked? ==> Fold(ps[k].text, ignoreCase) == foldPattern
  }

  /** No plain piece, folded, holds the folded pattern. */
  ghost predicate PlainAvoid(ps: seq<Piece>, foldPattern: string, ignoreCase: bool)
  {
    forall k :: 0 <= k < |ps| && ps[k].Plain? ==> !IsSubstring(foldPattern, Fold(ps[k].text, ignoreCase))
  }

  lemma MarkedAreAppend(a: seq<Piece>, b: seq<Piece>, foldPattern: string, ignoreCase: bool)
    requires MarkedAre(a, foldPattern, ignoreCase) && MarkedAre(b, foldPattern, ignoreCase)
    ensures MarkedAre(a + b, foldPattern, ignoreCase)
  {
    forall k | |a| <= k < |a + b| ensures (a + b)[k] == b[k - |a|] {
    }
  }

  lemma PlainAvoidAppend(a: seq<Piece>, b: seq<Piece>, foldPattern: string, ignoreCase: bool)
    requires PlainAvoid(a, foldPattern, ignoreCase) && PlainAvoid(b, foldPattern, ignoreCase)
    ensures PlainAvoid(a + b, foldPattern, ignoreCase)
  {
    forall k | |a| <= k < |a + b| ensures (a + b)[k] == b[k - |a|] {
    }
  }

  /** A match the search reports lies inside the line, and the line's text
      there, folded, is the pattern. */
  lemma MatchAt(line: string, foldPattern: string, ignoreCase: bool, last: nat)
    requires last <= |line|
    requires IndexFrom(Fold(line, ignoreCase), foldPattern, last) != -1
    ensures var at := IndexFrom(Fold(line, ignoreCase), foldPattern, last);
      && last <= at && at + |foldPattern| <= |line|
      && Fold(line[at..at + |foldPattern|], ignoreCase) == foldPattern
  {
    var fl := Fold(line, ignoreCase);
    var at := IndexFrom(fl, foldPattern, last);
    IndexFromSpec(fl, foldPattern, last);
    FoldSlice(line, at, at + |foldPattern|, ignoreCase);
  }

  /** Where the search from `lo` reports nothing before `hi`, the folded
      stretch `line[lo..hi]` holds no occurrence. */
  lemma NoMatchBetween(line: string, foldPattern: string, ignoreCase: bool, lo: nat, hi: nat)
    requires lo <= hi <= |line| && |foldPattern| > 0
    requires var at := IndexFrom(Fold(line, ignoreCase), foldPattern, lo);
      at == -1 || hi <= at
    ensures !IsSubstring(foldPattern, Fold(line[lo..hi], ignoreCase))
  {
    var fl := Fold(line, ignoreCase);
    IndexFromSpec(fl, foldPattern, lo);
    FoldSlice(line, lo, hi, ignoreCase);
    var t := fl[lo..hi];
    forall i | 0 <= i && i + |foldPattern| <= |t| ensures !OccursAt(t, foldPattern, i) {
      assert t[i..i + |foldPattern|] == fl[lo + i..lo + i + |foldPattern|];
      assert !OccursAt(fl, foldPattern, lo + i);
    }
  }

  /** Every marked span, lower-cased when ignoring case, is the searched-for
      pattern. */
  lemma {:induction false} MarkLoopMarked(line: string, foldPattern: string, ignoreCase: bool, last: nat)
    requires |foldPattern| > 0 && last <= |line|
    ensures MarkedAre(MarkLoop(line, Fold(line, ignoreCase), foldPattern, |foldPattern|, last), foldPattern, ignoreCase)
    decreases |line| - last
  {
    var fl := Fold(line, ignoreCase);
    var plen := |foldPattern|;
    var at := IndexFrom(fl, foldPattern, last);
    if at == -1 {
      MarkLoopEnd(line, fl, foldPattern, plen, last);
    } else {
      MatchAt(line, foldPattern, ignoreCase, last);
      var next: nat := at + plen;
      MarkLoopStep(line, fl, foldPattern, plen, last, at, next);
      var front := [Plain(line[last..at]), Marked(line[at..next])];
      var rest := MarkLoop(line, fl, foldPattern, plen, next);
      MarkLoopMarked(line, foldPattern, ignoreCase, next);
      MarkedAreAppend(front, rest, foldPattern, ignoreCase);
    }
  }

  /** No plain stretch, lower-cased when ignoring case, holds the pattern. */
  lemma {:induction false} MarkLoopPlain(line: string, foldPattern: string, ignoreCase: bool, last: nat)
    requires |foldPattern| > 0 && last <= |line|
    ensures PlainAvoid(MarkLoop(line, Fold(line, ignoreCase), foldPattern, |foldPattern|, last), foldPattern, ignoreCase)
    decreases |line| - last
  {
    var fl := Fold(line, ignoreCase);
    var plen := |foldPattern|;
    var at := IndexFrom(fl, foldPattern, last);
    if at == -1 {
      MarkLoopEnd(line, fl, foldPattern, plen, last);
      NoMatchBetween(line, foldPattern, ignoreCase, last, |line|);
      assert line[last..|line|] == line[last..];
    } else {
      MatchAt(line, foldPattern, ignoreCase, last);
      var next: nat := at + plen;
      MarkLoopStep(line, fl, foldPattern, plen, last, at, next);
      var front := [Plain(line[last..at]), Marked(line[at..next])];
      var rest := MarkLoop(line, fl, foldPattern, plen, next);
      MarkLoopPlain(line, foldPattern, ignoreCase, next);
      NoMatchBetween(line, foldPattern, ignoreCase, last, at);
      PlainAvoidAppend(front, rest, foldPattern, ignoreCase);
    }
  }

  /** Copying spans out of a line without ESC characters writes none. */
  lemma {:induction false} MarkLoopFree(line: string, lowerLine: string, lowerPattern: string, plen: nat, last: nat)
    requires |lowerLine| == |line| && last <= |line| && plen > 0
    requires MarkerFree(line)
    ensures AllMarkerFree(MarkLoop(line, lowerLine, lowerPattern, plen, last))
    decreases |line| - last
  {
    var at := IndexFrom(lowerLine, lowerPattern, last);
    if at == -1 || at + plen > |line| {
      MarkLoopEnd(line, lowerLine, lowerPattern, plen, last);
      MarkerFreeSlice(line, last, |line|);
      assert line[last..|line|] == line[last..];
    } else {
      var next: nat := at + plen;
      MarkLoopStep(line, lowerLine, lowerPattern, plen, last, at, next);
      var front := [Plain(line[last..at]), Marked(line[at..next])];
      var rest := MarkLoop(line, lowerLine, lowerPattern, plen, next);
      MarkLoopFree(line, lowerLine, lowerPattern, plen, next);
      MarkerFreeSlice(line, last, at);
      MarkerFreeSlice(line, at, next);
      AllMarkerFreeAppend(front, rest);
    }
  }

  /** Lower-casing the texts of a piece sequence, keeping each piece's kind. */
  function LowerPieces(ps: seq<Piece>): (qs: seq<Piece>)
    ensures |qs| == |ps|
    ensures forall k :: 0 <= k < |ps| ==> qs[k].Marked? == ps[k].Marked? && qs[k].text == Lower(ps[k].text)
  {
    if ps == [] then []
    else
      var q := match ps[0]
        case Plain(t) => Plain(Lower(t))
        case Marked(t) => Marked(Lower(t));
      [q] + LowerPieces(ps[1..])
  }

  lemma {:induction false} LowerPiecesAppend(a: seq<Piece>, b: seq<Piece>)
    ensures LowerPieces(a + b) == LowerPieces(a) + LowerPieces(b)
    decreases |a|
  {
    if a == [] {
      assert a + b == b;
    } else {
      assert (a + b)[1..] == a[1..] + b;
      assert (a + b)[0] == a[0];
      LowerPiecesAppend(a[1..], b);
    }
  }

  /** The case-insensitive loop makes the same cuts in `line` as it would in
      the lower-cased line: only the casing of the copied text differs. */
  lemma {:induction false} MarkLoopLower(line: string, lowerPattern: string, plen: nat, last: nat)
    requires plen > 0 && last <= |line|
    ensures LowerPieces(MarkLoop(line, Lower(line), lowerPattern, plen, last))
      == MarkLoop(Lower(line), Lower(line), lowerPattern, plen, last)
    decreases |line| - last
  {
    var ll := Lower(line);
    var at := IndexFrom(ll, lowerPattern, last);
    if at == -1 || at + plen > |line| {
      MarkLoopEnd(line, ll, lowerPattern, plen, last);
      MarkLoopEnd(ll, ll, lowerPattern, plen, last);
      LowerSlice(line, last, |line|);
      assert line[last..|line|] == line[last..];
      assert ll[last..|line|] == ll[last..];
    } else {
      var next: nat := at + plen;
      MarkLoopStep(line, ll, lowerPattern, plen, last, at, next);
      MarkLoopStep(ll, ll, lowerPattern, plen, last, at, next);
      MarkLoopLower(line, lowerPattern, plen, next);
      LowerSlice(line, last, at);
      LowerSlice(line, at, next);
      var front := [Plain(line[last..at]), Marked(line[at..next])];
      var rest := MarkLoop(line, ll, lowerPattern, plen, next);
      LowerPiecesAppend(front, rest);
    }
  }

  /** One replacement step of ReplaceAll. */
  lemma ReplaceAllStep(s: string, target: string, repl: string, i: int)
    requires |target| > 0 && i == Index(s, target) && i >= 0
    ensures i + |target| <= |s|
    ensures ReplaceAll(s, target, repl) == s[..i] + repl + ReplaceAll(s[i + |target|..], target, repl)
  {
    var x := ReplaceAll(s, target, repl);
    assert x == s[..i] + repl + ReplaceAll(s[i + |target|..], target, repl);
  }

  /** Case-sensitive: strings.ReplaceAll(s, p, Red + p + Reset) writes exactly
      the pieces of the loop that searches `s` itself. */
  lemma {:induction false} ReplaceAllMarks(s: string, p: string, last: nat)
    requires |p| > 0 && last <= |s|
    ensures ReplaceAll(s[last..], p, Red + p + Reset) == Render(MarkLoop(s, s, p, |p|, last))
    decreases |s| - last
  {
    var t := s[last..];
    var repl := Red + p + Reset;
    var i := Index(t, p);
    IndexOfSuffix(s, p, last);
    if i == -1 {
      assert ReplaceAll(t, p, repl) == t;
      MarkLoopEnd(s, s, p, |p|, last);
      assert Render([Plain(t)]) == t + Render([]);
    } else {
      var at := last + i;
      var next: nat := at + |p|;
      IndexFromSpec(s, p, last);
      assert s[at..next] == p;
      assert t[i + |p|..] == s[next..];
      assert t[..i] == s[last..at];
      ReplaceAllStep(t, p, repl, i);
      ReplaceAllMarks(s, p, next);
      var rest := MarkLoop(s, s, p, |p|, next);
      var front := [Plain(s[last..at]), Marked(s[at..next])];
      MarkLoopStep(s, s, p, |p|, last, at, next);
      RenderAppend(front, rest);
      RenderPair(s[last..at], p);
    }
  }

  /** For a non-empty pattern, highlightMatches writes the pieces above,
      whichever value `fixedStrings` has. */
  lemma HighlightMatchesPieces(line: string, pattern: string, fixedStrings: bool, ignoreCase: bool)
    requires |pattern| > 0
    ensures HighlightMatches(line, pattern, fixedStrings, ignoreCase) == Render(Pieces(line, pattern, ignoreCase))
  {
    if !ignoreCase {
      ReplaceAllMarks(line, pattern, 0);
      assert line[0..] == line;
    }
  }

  /** highlightMatches only inserts markers: deleting them gives back the
      line; an empty pattern leaves the line as it is; every highlighted span
      is a stretch of the line equal to the pattern (after lower-casing when
      ignoring case), and no unhighlighted stretch holds a match. */
  lemma HighlightMatchesSound(line: string, pattern: string, fixedStrings: bool, ignoreCase: bool)
    ensures pattern == [] ==> HighlightMatches(line, pattern, fixedStrings, ignoreCase) == line
    ensures MarkerFree(line) ==> StripMarkers(HighlightMatches(line, pattern, fixedStrings, ignoreCase)) == line
    ensures pattern != [] ==>
      var ps := Pieces(line, pattern, ignoreCase);
      && HighlightMatches(line, pattern, fixedStrings, ignoreCase) == Render(ps)
      && Unmarked(ps) == line
      && MarkedAre(ps, Fold(pattern, ignoreCase), ignoreCase)
      && PlainAvoid(ps, Fold(pattern, ignoreCase), ignoreCase)
  {
    if pattern != [] {
      var fp := Fold(pattern, ignoreCase);
      var ps := Pieces(line, pattern, ignoreCase);
      HighlightMatchesPieces(line, pattern, fixedStrings, ignoreCase);
      MarkLoopText(line, Fold(line, ignoreCase), fp, |pattern|, 0);
      MarkLoopMarked(line, fp, ignoreCase, 0);
      MarkLoopPlain(line, fp, ignoreCase, 0);
      assert line[0..] == line;
      if MarkerFree(line) {
        MarkLoopFree(line, Fold(line, ignoreCase), fp, |pattern|, 0);
        StripRender(ps);
      }
    } else {
      if MarkerFree(line) {
        StripMarkersOfFree(line);
      }
    }
  }

  /** Lower-casing the case-insensitive highlight gives the case-sensitive
      highlight of the lower-cased line with the lower-cased pattern. */
  lemma IgnoreCaseFollowsLowered(line: string, pattern: string)
    requires |pattern| > 0
    ensures Render(LowerPieces(Pieces(line, pattern, true)))
      == ReplaceAll(Lower(line), Lower(pattern), Red + Lower(pattern) + Reset)
  {
    MarkLoopLower(line, Lower(pattern), |pattern|, 0);
    ReplaceAllMarks(Lower(line), Lower(pattern), 0);
    assert Lower(line)[0..] == Lower(line);
  }
}

=== FILE: ignore.dfy ===
/**
 The ignore-file handling of main_v2.go: reading the rules out of the
 search root's .gitignore, the reduced rule matcher (a substring test with
 a little wildcard support, not real .gitignore semantics), and the
 built-in list of directories that are never entered.
 */
module Ignore {
  import opened Strings
  import opened Paths
  import opened Options

  /** The lines the scanner produced from an ignore file, and whether it
      stopped on a read error. */
  datatype IgnoreFile = IgnoreFile(lines: seq<string>, readError: bool)

  /** GitignoreFilter: the root the rules are relative to, and the rules. */
  datatype Filter = Filter(basePath: string, patterns: seq<string>)

  /** loadGitignoreFilter's two results: the filter and whether an error came back. */
  datatype Loaded = Loaded(filter: Filter, failed: bool)

  /** A trimmed line that becomes a rule: not blank and not a comment. */
  predicate Kept(line: string)
  {
    line != "" && !HasPrefix(line, "#")
  }

  /** The rules of an ignore file: each line trimmed of white space, blank
      lines and lines starting with "#" dropped, file order kept. */
  function ParseIgnoreLines(lines: seq<string>): (patterns: seq<string>)
    ensures |patterns| <= |lines|
    ensures forall k :: 0 <= k < |patterns| ==>
      Kept(patterns[k]) && !IsSpace(patterns[k][0]) && !IsSpace(patterns[k][|patterns[k]| - 1])
    decreases |lines|
  {
    if lines == [] then []
    else
      var t := TrimSpace(lines[0]);
      (if Kept(t) then [t] else []) + ParseIgnoreLines(lines[1..])
  }

  /** The rules of two stretches of a file are those of the first, then
      those of the second. */
  lemma {:induction false} ParseIgnoreLinesAppend(a: seq<string>, b: seq<string>)
    ensures ParseIgnoreLines(a + b) == ParseIgnoreLines(a) + ParseIgnoreLines(b)
    decreases |a|
  {
    if a == [] {
      assert a + b == b;
    } else {
      assert (a + b)[0] == a[0];
      assert (a + b)[1..] == a[1..] + b;
      ParseIgnoreLinesAppend(a[1..], b);
    }
  }

  /** A rule is loaded exactly when it is the trimmed form of some line and
      that form is kept. */
  lemma {:induction false} ParseIgnoreLinesMembers(lines: seq<string>, p: string)
    ensures p in ParseIgnoreLines(lines)
      <==> Kept(p) && exists i :: 0 <= i < |lines| && TrimSpace(lines[i]) == p
    decreases |lines|
  {
    if lines != [] {
      ParseIgnoreLinesMembers(lines[1..], p);
      var t := TrimSpace(lines[0]);
      if exists i :: 0 <= i < |lines[1..]| && TrimSpace(lines[1..][i]) == p {
        var i :| 0 <= i < |lines[1..]| && TrimSpace(lines[1..][i]) == p;
        assert TrimSpace(lines[i + 1]) == p;
      }
      if exists i :: 0 <= i < |lines| && TrimSpace(lines[i]) == p {
        var i :| 0 <= i < |lines| && TrimSpace(lines[i]) == p;
        if i > 0 {
          assert TrimSpace(lines[1..][i - 1]) == p;
        }
      }
    }
  }

  /** Where loadGitignoreFilter looks for the ignore file. */
  function IgnoreFilePath(searchPath: string): string
  {
    JoinPath(searchPath, ".gitignore")
  }

  /** loadGitignoreFilter, given what opening IgnoreFilePath(searchPath)
      gave: None when it could not be opened. */
  function LoadGitignoreFilter(searchPath: string, file: Option<IgnoreFile>): (r: Loaded)
    ensures r.filter.basePath == searchPath
    ensures file.None? ==> r.filter.patterns == [] && !r.failed
    ensures file.Some? ==> r.failed == file.value.readError
    ensures file.Some? ==> r.filter.patterns == ParseIgnoreLines(file.value.lines)
  {
    match file
    case None => Loaded(Filter(searchPath, []), false)
    case Some(f) => Loaded(Filter(searchPath, ParseIgnoreLines(f.lines)), f.readError)
  }

  /** The filter search uses: none unless asked to respect the ignore file,
      and none when loading it reported an error. */
  function ActiveFilter(respectGitignore: bool, searchPath: string, file: Option<IgnoreFile>): (f: Option<Filter>)
    ensures f.Some? ==> respectGitignore && f.value.basePath == searchPath
    ensures f.Some? <==> respectGitignore && !(file.Some? && file.value.readError)
    ensures f.Some? ==> f.value == LoadGitignoreFilter(searchPath, file).filter
    ensures f.Some? ==> f.value.patterns == (if file.Some? then ParseIgnoreLines(file.value.lines) else [])
  {
    if !respectGitignore then None
    else
      var loaded := LoadGitignoreFilter(searchPath, file);
      if loaded.failed then None else Some(loaded.filter)
  }

  /** matchWildcard.  "*" matches everything; a pattern starting "*."
      is a suffix test; a pattern splitting into two pieces at "*" is a
      prefix and suffix test; anything else matches nothing. */
  function MatchWildcard(text: string, pattern: string): bool
  {
    if pattern == "*" then true
    else if HasPrefix(pattern, "*.") then HasSuffix(text, TrimPrefix(pattern, "*"))
    else
      var parts := Split(pattern, '*');
      if |parts| == 2 then HasPrefix(text, parts[0]) && HasSuffix(text, parts[1])
      else false
  }

  /** matchGitignorePattern. */
  function MatchGitignorePattern(path: string, pattern: string): bool
  {
    var p := TrimPrefix(pattern, "/");
    if HasPrefix(p, "!") then false
    else if HasSuffix(p, "/") then Contains(path, TrimSuffix(p, "/"))
    else if Contains(p, "*") then MatchWildcard(path, p)
    else if Contains(path, p) then true
    else Base(path) == p
  }

  /** The search over the rules: does any of them match `path`? */
  function AnyRuleMatches(patterns: seq<string>, path: string): (r: bool)
    ensures r <==> exists k :: 0 <= k < |patterns| && MatchGitignorePattern(path, patterns[k])
    decreases |patterns|
  {
    if patterns == [] then false
    else if MatchGitignorePattern(path, patterns[0]) then true
    else
      var r := AnyRuleMatches(patterns[1..], path);
      assert r ==> exists k :: 0 <= k < |patterns| && MatchGitignorePattern(path, patterns[k]) by {
        if r {
          var k :| 0 <= k < |patterns[1..]| && MatchGitignorePattern(path, patterns[1..][k]);
          assert MatchGitignorePattern(path, patterns[k + 1]);
        }
      }
      assert (exists k :: 0 <= k < |patterns| && MatchGitignorePattern(path, patterns[k])) ==> r by {
        if exists k :: 0 <= k < |patterns| && MatchGitignorePattern(path, patterns[k]) {
          var k :| 0 <= k < |patterns| && MatchGitignorePattern(path, patterns[k]);
          assert k > 0 && MatchGitignorePattern(path, patterns[1..][k - 1]);
        }
      }
      r
  }

  /** shouldIgnore, given the slash-separated path of the entry relative to
      the filter's root. */
  function ShouldIgnore(filter: Option<Filter>, relPath: string): (r: bool)
    ensures filter.None? || filter.value.patterns == [] ==> !r
    ensures r <==>
      filter.Some? && exists k :: 0 <= k < |filter.value.patterns| && MatchGitignorePattern(relPath, filter.value.patterns[k])
  {
    filter.Some? && AnyRuleMatches(filter.value.patterns, relPath)
  }

  /** Rule order plays no part: any rearrangement of the rules ignores the
      same paths. */
  lemma ShouldIgnoreOrderFree(basePath: string, ps: seq<string>, qs: seq<string>, relPath: string)
    requires multiset(ps) == multiset(qs)
    ensures ShouldIgnore(Some(Filter(basePath, ps)), relPath) == ShouldIgnore(Some(Filter(basePath, qs)), relPath)
  {
    if ShouldIgnore(Some(Filter(basePath, ps)), relPath) {
      var k :| 0 <= k < |ps| && MatchGitignorePattern(relPath, ps[k]);
      assert ps[k] in multiset(qs);
      var j :| 0 <= j < |qs| && qs[j] == ps[k];
    }
    if ShouldIgnore(Some(Filter(basePath, qs)), relPath) {
      var k :| 0 <= k < |qs| && MatchGitignorePattern(relPath, qs[k]);
      assert qs[k] in multiset(ps);
      var j :| 0 <= j < |ps| && ps[j] == qs[k];
    }
  }

  /** Only one leading "/" is stripped: "/" then a pattern without one
      behaves as the pattern. */
  lemma LeadingSlashStripped(path: string, q: string)
    requires !HasPrefix(q, "/")
    ensures MatchGitignorePattern(path, "/" + q) == MatchGitignorePattern(path, q)
  {
    assert TrimPrefix("/" + q, "/") == q;
    assert TrimPrefix(q, "/") == q;
  }

  /** A rule starting with "!" (after the leading "/") never matches. */
  lemma NegatedRuleNeverMatches(path: string, pattern: string)
    requires HasPrefix(TrimPrefix(pattern, "/"), "!")
    ensures !MatchGitignorePattern(path, pattern)
  {
  }

  /** A rule ending in "/" matches the paths that contain the rest of it. */
  lemma DirectoryRuleIsContainment(path: string, q: string)
    requires q != [] && !HasPrefix(q, "/") && !HasPrefix(q, "!")
    ensures MatchGitignorePattern(path, q + "/") <==> IsSubstring(q, path)
  {
    var p := q + "/";
    assert p[0] == q[0];
    assert TrimPrefix(p, "/") == p;
    assert HasSuffix(p, "/");
    assert TrimSuffix(p, "/") == q;
  }

  /** A rule that is empty once its leading "/" is gone matches every path,
      and so does the rule "/" followed by "/". */
  lemma EmptyRuleMatchesAll(path: string)
    ensures MatchGitignorePattern(path, "")
    ensures MatchGitignorePattern(path, "/")
    ensures MatchGitignorePattern(path, "//")
  {
    assert OccursAt(path, "", 0);
    assert TrimPrefix("/", "/") == "";
    assert TrimPrefix("//", "/") == "/";
    assert !HasPrefix("/", "!") by {
      assert "!"[0] != "/"[0];
    }
    assert TrimSuffix("/", "/") == "";
    assert !Contains("", "*") by {
      assert !OccursAt("", "*", 0);
    }
  }

  /** A plain rule (no "*", no "!", no "/" at either end) matches a
      non-empty path exactly when the path contains it: the base-name test
      adds nothing. */
  lemma PlainRuleIsContainment(path: string, q: string)
    requires path != []
    requires !HasPrefix(q, "/") && !HasPrefix(q, "!") && !HasSuffix(q, "/") && '*' !in q
    ensures MatchGitignorePattern(path, q) <==> IsSubstring(q, path)
  {
    assert TrimPrefix(q, "/") == q;
    forall i | 0 <= i && i + 1 <= |q| ensures !OccursAt(q, "*", i) {
      assert q[i..i + 1][0] == q[i];
    }
  }

  /** A rule holding "*" (and no "!" or "/" at either end) is decided by
      matchWildcard on the whole relative path. */
  lemma WildcardRuleIsWildcard(path: string, q: string, i: nat)
    requires i < |q| && q[i] == '*'
    requires !HasPrefix(q, "/") && !HasPrefix(q, "!") && !HasSuffix(q, "/")
    ensures MatchGitignorePattern(path, q) == MatchWildcard(path, q)
  {
    assert TrimPrefix(q, "/") == q;
    assert OccursAt(q, "*", i);
  }

  /** A pattern with exactly one "*" matches the texts that start with what
      precedes the star and end with what follows it; this covers "*"
      and the "*." forms too. */
  lemma WildcardOneStar(text: string, pattern: string, i: nat)
    requires i < |pattern| && pattern[i] == '*'
    requires '*' !in pattern[..i] && '*' !in pattern[i + 1..]
    ensures MatchWildcard(text, pattern) <==> HasPrefix(text, pattern[..i]) && HasSuffix(text, pattern[i + 1..])
  {
    IndexOfChar(pattern, '*');
    var j := Index(pattern, ['*']);
    assert j == i;
    var rest := pattern[i + 1..];
    SplitStep(pattern, '*', i);
    IndexOfChar(rest, '*');
    assert Split(rest, '*') == [rest];
    if HasPrefix(pattern, "*.") {
      assert i == 0;
      assert TrimPrefix(pattern, "*") == rest;
    }
  }

  /** A pattern with two or more stars that does not start with "*."
      matches nothing. */
  lemma WildcardManyStars(text: string, pattern: string, i: nat, j: nat)
    requires i < j < |pattern| && pattern[i] == '*' && pattern[j] == '*'
    requires !HasPrefix(pattern, "*.")
    ensures !MatchWildcard(text, pattern)
  {
    assert pattern == pattern[..j] + pattern[j..];
    assert multiset(pattern) == multiset(pattern[..j]) + multiset(pattern[j..]);
    assert pattern[..j][i] == '*' && pattern[j..][0] == '*';
    assert multiset(pattern[..j])['*'] >= 1 && multiset(pattern[j..])['*'] >= 1;
    assert |Split(pattern, '*')| >= 3;
  }

  /** Whatever follows it, a pattern starting "*." is a suffix test with
      the pattern minus its first star, even when more stars follow. */
  lemma StarDotIsSuffix(text: string, pattern: string)
    requires HasPrefix(pattern, "*.")
    ensures MatchWildcard(text, pattern) <==> HasSuffix(text, pattern[1..])
  {
    assert pattern != "*";
    assert "*" + pattern[1..] == pattern;
  }

  /** A "*." pattern is a suffix test on the text after the star:
      "*.log" matches "build/output.log" and not "output.logx". */
  lemma ExtensionRuleExamples()
    ensures MatchWildcard("build/output.log", "*.log")
    ensures !MatchWildcard("output.logx", "*.log")
    ensures MatchGitignorePattern("build/output.log", "*.log")
  {
    assert HasPrefix("*.log", "*.");
    assert TrimPrefix("*.log", "*") == ".log";
    assert "build/output.log"[12..] == ".log";
    assert "output.logx"[7..] != ".log" by {
      assert "output.logx"[7..][3] == 'x';
    }
    WildcardRuleIsWildcard("build/output.log", "*.log", 0);
  }

  /** The directory names shouldIgnoreDirectory refuses, wherever they sit. */
  const IgnoredDirs: seq<string> := [
    ".git", ".idea",
    ".svn", ".hg", ".bzr",
    "node_modules",
    ".vscode",
    "__pycache__",
    ".pytest_cache",
    "build", "dist",
    "target"
  ]

  /** shouldIgnoreDirectory: the base name is one of IgnoredDirs; the
      search root plays no part. */
  function ShouldIgnoreDirectory(path: string, basePath: string): (r: bool)
    ensures r <==> Base(path) in IgnoredDirs
  {
    var dirName := Base(path);
    assert IgnoredDirs == [".git", ".idea"] + IgnoredDirs[2..];
    dirName == ".git" || dirName == ".idea" || dirName in IgnoredDirs[2..]
  }
}

=== FILE: markers.dfy ===
/**
 ANSI colour markers and the shape of highlighted output.  A highlighter writes
 a sequence of pieces: plain text, and marked text that is rendered between
 Red and Reset.  Deleting the markers from a rendering gives back the pieces'
 text, as long as that text contains no ESC character.
 */
module Markers {
  import opened Strings

  const Esc: char := '\U{1B}'
  const Red: string := [Esc] + "[31m"
  const Green: string := [Esc] + "[32m"
  const Purple: string := [Esc] + "[35m"
  const Reset: string := [Esc] + "[0m"

  /** Text in which no colour marker can start. */
  predicate MarkerFree(s: string)
  {
    Esc !in s
  }

  datatype Piece = Plain(text: string) | Marked(text: string)

  /** What the highlighter's builder holds once every piece has been written. */
  function Render(ps: seq<Piece>): string
  {
    if ps == [] then ""
    else
      var head := match ps[0]
        case Plain(t) => t
        case Marked(t) => Red + t + Reset;
      head + Render(ps[1..])
  }

  /** The pieces' text with the emphasis left out. */
  function Unmarked(ps: seq<Piece>): string
  {
    if ps == [] then "" else ps[0].text + Unmarked(ps[1..])
  }

  predicate AllMarkerFree(ps: seq<Piece>)
  {
    forall k :: 0 <= k < |ps| ==> MarkerFree(ps[k].text)
  }

  lemma MarkerFreeSlice(s: string, lo: int, hi: int)
    requires MarkerFree(s) && 0 <= lo <= hi <= |s|
    ensures MarkerFree(s[lo..hi])
  {
    var t := s[lo..hi];
    forall j | 0 <= j < |t| ensures t[j] != Esc {
      assert t[j] == s[lo + j];
    }
  }

  lemma AllMarkerFreeAppend(a: seq<Piece>, b: seq<Piece>)
    requires AllMarkerFree(a) && AllMarkerFree(b)
    ensures AllMarkerFree(a + b)
  {
    forall k | 0 <= k < |a + b| ensures MarkerFree((a + b)[k].text) {
      if k >= |a| {
        assert (a + b)[k] == b[k - |a|];
      }
    }
  }

  /** Deletes every Red, Green, Purple and Reset marker from `s`. */
  function StripMarkers(s: string): string
    decreases |s|
  {
    if s == [] then []
    else if HasPrefix(s, Red) then StripMarkers(s[|Red|..])
    else if HasPrefix(s, Green) then StripMarkers(s[|Green|..])
    else if HasPrefix(s, Purple) then StripMarkers(s[|Purple|..])
    else if HasPrefix(s, Reset) then StripMarkers(s[|Reset|..])
    else [s[0]] + StripMarkers(s[1..])
  }

  lemma {:induction false} StripPlain(t: string, rest: string)
    requires MarkerFree(t)
    ensures StripMarkers(t + rest) == t + StripMarkers(rest)
    decreases |t|
  {
    if t != [] {
      var s := t + rest;
      assert s[0] == t[0] != Esc;
      assert Red[0] == Green[0] == Purple[0] == Reset[0] == Esc;
      assert !HasPrefix(s, Red) && !HasPrefix(s, Green) && !HasPrefix(s, Purple) && !HasPrefix(s, Reset);
      assert s[1..] == t[1..] + rest;
      StripPlain(t[1..], rest);
      assert t == [t[0]] + t[1..];
    } else {
      assert t + rest == rest;
    }
  }

  /** Text without an ESC character has nothing to strip. */
  lemma StripMarkersOfFree(t: string)
    requires MarkerFree(t)
    ensures StripMarkers(t) == t
  {
    StripPlain(t, []);
    assert t + [] == t;
  }

  lemma StripMarker(m: string, rest: string)
    requires m == Red || m == Green || m == Purple || m == Reset
    ensures StripMarkers(m + rest) == StripMarkers(rest)
  {
    var s := m + rest;
    assert s[..|m|] == m;
    assert s[|m|..] == rest;
    if m == Reset {
      assert s[2] == '0';
      assert !HasPrefix(s, Red) && !HasPrefix(s, Green) && !HasPrefix(s, Purple);
    } else if m == Purple {
      assert s[3] == '5';
      assert !HasPrefix(s, Red) && !HasPrefix(s, Green);
    } else if m == Green {
      assert s[3] == '2';
      assert !HasPrefix(s, Red);
    }
  }

  lemma Associate3(a: string, b: string, c: string)
    ensures (a + b) + c == a + (b + c)
  {
  }

  lemma Associate5(a: string, b: string, c: string, d: string, e: string)
    ensures a + b + c + d + e == a + (b + (c + (d + e)))
  {
  }

  /** Deleting the markers from a rendering, and from whatever follows
      it, leaves exactly the pieces' text, then the rest stripped. */
  lemma {:induction false} StripRenderThen(ps: seq<Piece>, rest: string)
    requires AllMarkerFree(ps)
    ensures StripMarkers(Render(ps) + rest) == Unmarked(ps) + StripMarkers(rest)
    decreases |ps|
  {
    if ps == [] {
      assert Render(ps) + rest == rest;
    } else {
      var t := ps[0].text;
      assert MarkerFree(t);
      var more := Render(ps[1..]);
      var tail := more + rest;
      StripRenderThen(ps[1..], rest);
      assert Unmarked(ps) == t + Unmarked(ps[1..]);
      Associate3(t, Unmarked(ps[1..]), StripMarkers(rest));
      match ps[0]
      case Plain(_) =>
        assert Render(ps) == t + more;
        Associate3(t, more, rest);
        StripPlain(t, tail);
      case Marked(_) =>
        var open, close := Red, Reset;
        assert Render(ps) == open + t + close + more;
        Associate5(open, t, close, more, rest);
        StripMarker(Red, t + (Reset + tail));
        StripPlain(t, Reset + tail);
        StripMarker(Reset, tail);
    }
  }

  /** Deleting the markers from a rendering leaves exactly the pieces' text. */
  lemma StripRender(ps: seq<Piece>)
    requires AllMarkerFree(ps)
    ensures StripMarkers(Render(ps)) == Unmarked(ps)
  {
    StripRenderThen(ps, []);
    assert Render(ps) + [] == Render(ps);
    assert Unmarked(ps) + [] == Unmarked(ps);
  }

  lemma UnmarkedAppend(a: seq<Piece>, b: seq<Piece>)
    ensures Unmarked(a + b) == Unmarked(a) + Unmarked(b)
  {
    if a != [] {
      assert (a + b)[1..] == a[1..] + b;
      assert (a + b)[0] == a[0];
      UnmarkedAppend(a[1..], b);
    } else {
      assert a + b == b;
    }
  }

  lemma RenderAppend(a: seq<Piece>, b: seq<Piece>)
    ensures Render(a + b) == Render(a) + Render(b)
  {
    if a != [] {
      assert (a + b)[1..] == a[1..] + b;
      assert (a + b)[0] == a[0];
      RenderAppend(a[1..], b);
    } else {
      assert a + b == b;
    }
  }
}

=== FILE: matcher.dfy ===
/**
 The line matcher: a literal substring test, optionally after lower-casing
 both sides, and the display truncation the scanner applies first.
 */
module Matcher {
  import opened Strings

  /** matchesPattern.  Both branches on `fixedStrings` run the same test. */
  function MatchesPattern(line: string, pattern: string, fixedStrings: bool, ignoreCase: bool): (r: bool)
    ensures r <==> IsSubstring(Fold(pattern, ignoreCase), Fold(line, ignoreCase))
    ensures !ignoreCase ==> (r <==> IsSubstring(pattern, line))
    ensures ignoreCase ==> (r <==> IsSubstring(Lower(pattern), Lower(line)))
  {
    var l := if ignoreCase then Lower(line) else line;
    var p := if ignoreCase then Lower(pattern) else pattern;
    if fixedStrings then Contains(l, p) else Contains(l, p)
  }

  /** The empty pattern matches every line. */
  lemma EmptyPatternMatchesAll(line: string, fixedStrings: bool, ignoreCase: bool)
    ensures MatchesPattern(line, "", fixedStrings, ignoreCase)
  {
    assert OccursAt(Fold(line, ignoreCase), Fold("", ignoreCase), 0);
  }

  const MaxDisplayLen: nat := 32768
  const TruncationMarker: string := "... [line truncated]"

  /** A line longer than MaxDisplayLen bytes keeps its first MaxDisplayLen
      bytes followed by the marker text. */
  function Truncate(line: string): (r: string)
    ensures |r| <= MaxDisplayLen + |TruncationMarker|
    ensures |line| <= MaxDisplayLen ==> r == line
    ensures |line| > MaxDisplayLen ==> |r| == MaxDisplayLen + |TruncationMarker|
    ensures |line| > MaxDisplayLen ==> r[..MaxDisplayLen] == line[..MaxDisplayLen]
    ensures |line| > MaxDisplayLen ==> r[MaxDisplayLen..] == TruncationMarker
  {
    if |line| > MaxDisplayLen then line[..MaxDisplayLen] + TruncationMarker else line
  }

  /** An occurrence inside the kept prefix still matches after truncation. */
  lemma TruncationKeepsEarlyMatch(line: string, pattern: string, fixedStrings: bool, ignoreCase: bool, i: int)
    requires OccursAt(Fold(line, ignoreCase), Fold(pattern, ignoreCase), i)
    requires i + |pattern| <= MaxDisplayLen
    ensures MatchesPattern(Truncate(line), pattern, fixedStrings, ignoreCase)
  {
    var t := Truncate(line);
    if |line| > MaxDisplayLen {
      var n := i + |pattern|;
      SliceOfPrefix(t, MaxDisplayLen, i, n);
      SliceOfPrefix(line, MaxDisplayLen, i, n);
      FoldSlice(line, i, n, ignoreCase);
      FoldSlice(t, i, n, ignoreCase);
      assert OccursAt(Fold(t, ignoreCase), Fold(pattern, ignoreCase), i);
    }
  }

  /** The matched text of a long line is its first MaxDisplayLen bytes and
      the marker, both folded. */
  lemma FoldTruncated(line: string, ignoreCase: bool)
    requires |line| > MaxDisplayLen
    ensures Fold(Truncate(line), ignoreCase)[..MaxDisplayLen] == Fold(line, ignoreCase)[..MaxDisplayLen]
    ensures Fold(Truncate(line), ignoreCase)[MaxDisplayLen..] == Fold(TruncationMarker, ignoreCase)
  {
    var t := Truncate(line);
    FoldSlice(t, 0, MaxDisplayLen, ignoreCase);
    FoldSlice(line, 0, MaxDisplayLen, ignoreCase);
    assert t[0..MaxDisplayLen] == line[0..MaxDisplayLen];
    FoldSuffix(t, MaxDisplayLen, ignoreCase);
  }

  /** A match that needs a character found neither in the kept prefix of a
      long line nor in the marker text is missed, wherever the line holds
      it past the limit. */
  lemma LateMatchIsMissed(line: string, pattern: string, fixedStrings: bool, ignoreCase: bool, ch: char)
    requires |line| > MaxDisplayLen
    requires ch in Fold(pattern, ignoreCase)
    requires ch !in Fold(line, ignoreCase)[..MaxDisplayLen] && ch !in Fold(TruncationMarker, ignoreCase)
    ensures !MatchesPattern(Truncate(line), pattern, fixedStrings, ignoreCase)
  {
    var ft := Fold(Truncate(line), ignoreCase);
    var fp := Fold(pattern, ignoreCase);
    FoldTruncated(line, ignoreCase);
    forall k | 0 <= k < |ft| ensures ft[k] != ch {
      if k < MaxDisplayLen {
        assert ft[k] == ft[..MaxDisplayLen][k];
      } else {
        assert ft[k] == ft[MaxDisplayLen..][k - MaxDisplayLen];
      }
    }
    var j :| 0 <= j < |fp| && fp[j] == ch;
    forall i ensures !OccursAt(ft, fp, i) {
      if 0 <= i && i + |fp| <= |ft| {
        assert ft[i..i + |fp|][j] == ft[i + j];
      }
    }
  }

  /** The marker text takes part in matching: every pattern that occurs in
      it matches a long line, whatever the line holds. */
  lemma MarkerTextIsMatched(line: string, pattern: string, fixedStrings: bool, ignoreCase: bool)
    requires |line| > MaxDisplayLen
    requires IsSubstring(Fold(pattern, ignoreCase), TruncationMarker)
    ensures MatchesPattern(Truncate(line), pattern, fixedStrings, ignoreCase)
  {
    var ft := Fold(Truncate(line), ignoreCase);
    var fp := Fold(pattern, ignoreCase);
    FoldTruncated(line, ignoreCase);
    MarkerIsLower();
    assert ft[MaxDisplayLen..] == TruncationMarker;
    var i :| OccursAt(TruncationMarker, fp, i);
    assert ft[MaxDisplayLen + i..MaxDisplayLen + i + |fp|] == TruncationMarker[i..i + |fp|];
    assert OccursAt(ft, fp, MaxDisplayLen + i);
  }

  /** The marker text has no upper-case letter. */
  lemma MarkerIsLower()
    ensures Fold(TruncationMarker, true) == TruncationMarker
  {
    assert forall k :: 0 <= k < |TruncationMarker| ==> LowerChar(TruncationMarker[k]) == TruncationMarker[k];
  }
}

=== FILE: options.dfy ===
/** The search settings the command line produces. */
module Options {

  /** A value that may be absent, such as a file that could not be opened. */
  datatype Option<T> = None | Some(value: T)

  /** One search run's settings.  `color` is the already-resolved colour
      decision; `respectGitignore` is read only by the main_v2.go walk. */
  datatype Config = Config(
    pattern: string,
    searchPath: string,
    fixedStrings: bool,
    hidden: bool,
    lineNumber: bool,
    withFilename: bool,
    color: bool,
    ignoreCase: bool,
    respectGitignore: bool)
}

=== FILE: output.dfy ===
/**
 What rg.go writes for a search.  Its searchInFile calls printMatch inside
 the scan loop, so the walk's reports are printed one by one as they are
 found; when the highlighter's slice runs past the end of the line the
 process stops at that report, and nothing after it is printed.
 */
module Output {
  import opened Scan
  import opened RgHighlight
  import opened Printer
  import opened Options
  import opened Walk

  /** The text of the reports printed, in order, and whether the run
      stopped on a panic before printing them all. */
  datatype RgRun = RgRun(printed: seq<string>, crashed: bool)

  /** The text printMatch gives for one report. */
  function RgPrintFound(f: Found, c: Config): Outcome<string>
  {
    RgPrintMatch(f.path, f.hit.lineNum, f.hit.line, c)
  }

  /** rg.go's output for the walk's reports `found`: each printed in turn,
      up to the first whose printing panics. */
  function RgOutput(found: seq<Found>, c: Config): (r: RgRun)
    ensures |r.printed| <= |found|
    ensures forall k :: 0 <= k < |r.printed| ==> RgPrintFound(found[k], c) == Done(r.printed[k])
    ensures r.crashed <==> |r.printed| < |found|
    ensures r.crashed ==> RgPrintFound(found[|r.printed|], c) == Panic
    decreases |found|
  {
    if found == [] then RgRun([], false)
    else
      match RgPrintFound(found[0], c)
      case Panic => RgRun([], true)
      case Done(s) =>
        var rest := RgOutput(found[1..], c);
        RgRun([s] + rest.printed, rest.crashed)
  }

  /** The run stops at the first report whose printing panics: no report
      at or after it is printed. */
  lemma RgCrashCutsOff(found: seq<Found>, c: Config, k: nat)
    requires k < |found| && RgPrintFound(found[k], c) == Panic
    ensures RgOutput(found, c).crashed && |RgOutput(found, c).printed| <= k
  {
  }

  /** Once the run has stopped, later reports (later lines of the file,
      later files) change nothing. */
  lemma {:induction false} RgCrashHidesLater(a: seq<Found>, b: seq<Found>, c: Config)
    requires RgOutput(a, c).crashed
    ensures RgOutput(a + b, c) == RgOutput(a, c)
    decreases |a|
  {
    assert (a + b)[0] == a[0];
    if RgPrintFound(a[0], c).Done? {
      assert (a + b)[1..] == a[1..] + b;
      RgCrashHidesLater(a[1..], b, c);
    }
  }

  /** With colour off nothing panics: every report is printed, as main.go
      prints it. */
  lemma RgPlainOutputComplete(found: seq<Found>, c: Config)
    requires !c.color
    ensures !RgOutput(found, c).crashed
    ensures forall k :: 0 <= k < |found| ==>
      RgOutput(found, c).printed[k] == PrintMatch(found[k].path, found[k].hit.lineNum, found[k].hit.line, c)
  {
    var r := RgOutput(found, c);
    forall k | 0 <= k < |found|
      ensures r.printed[k] == PrintMatch(found[k].path, found[k].hit.lineNum, found[k].hit.line, c)
    {
      RgPrintMatchAgrees(found[k].path, found[k].hit.lineNum, found[k].hit.line, c);
    }
  }
}

=== FILE: paths.dfy ===
/**
 The slice of Go's `path/filepath` the walker uses, for `/`-separated paths:
 Base, Ext, Join (only the cleaning a walk produces) and the hidden-name test.
 */
module Paths {
  import opened Strings

  /** `p` without its trailing run of slashes. */
  function TrimTrailingSlashes(p: string): (r: string)
    ensures r <= p
    ensures r == [] || r[|r| - 1] != '/'
    ensures AllSlashes(p[|r|..])
  {
    if p != [] && p[|p| - 1] == '/' then TrimTrailingSlashes(p[..|p| - 1]) else p
  }

  /** `s` is slashes only. */
  predicate AllSlashes(s: string)
  {
    forall k :: 0 <= k < |s| ==> s[k] == '/'
  }

  /** The characters after the last slash of `p`. */
  function LastElement(p: string): (r: string)
    ensures '/' !in r
    ensures HasSuffix(p, r)
    ensures |r| < |p| ==> p[|p| - |r| - 1] == '/'
  {
    if p == [] || p[|p| - 1] == '/' then []
    else LastElement(p[..|p| - 1]) + [p[|p| - 1]]
  }

  /** filepath.Base: the last element of `path` once trailing slashes are
      dropped; "." for the empty path and "/" for a path of slashes only. */
  function Base(path: string): (r: string)
    ensures r != []
    ensures path == [] ==> r == "."
    ensures r == "/" || '/' !in r
    ensures path != [] ==> IsSubstring(r, path)
    ensures path != [] && '/' !in path ==> r == path
    ensures path != [] ==> (r == "/" <==> AllSlashes(path))
    ensures path != [] && r != "/" ==>
      var t := TrimTrailingSlashes(path);
      HasSuffix(t, r) && (|r| == |t| || t[|t| - |r| - 1] == '/')
  {
    if path == [] then "."
    else
      var t := TrimTrailingSlashes(path);
      var e := LastElement(t);
      TrimmedEmpty(path);
      LastElementEmpty(t);
      if e == [] then
        assert OccursAt(path, "/", |path| - 1);
        "/"
      else
        assert OccursAt(path, e, |t| - |e|) by {
          assert path[..|t|] == t;
          assert path[|t| - |e|..|t|] == t[|t| - |e|..];
        }
        if '/' !in path then
          assert t == path;
          LastElementOfName(t);
          e
        else
          e
  }

  /** Dropping the trailing slashes leaves nothing exactly for a path of
      slashes only. */
  lemma TrimmedEmpty(path: string)
    ensures TrimTrailingSlashes(path) == [] <==> AllSlashes(path)
  {
    var t := TrimTrailingSlashes(path);
    if t == [] {
      assert path[|t|..] == path;
    } else {
      assert path[|t| - 1] == t[|t| - 1];
    }
  }

  /** The last element of a path that does not end in a slash is not empty. */
  lemma LastElementEmpty(t: string)
    requires t == [] || t[|t| - 1] != '/'
    ensures LastElement(t) == [] <==> t == []
  {
  }

  lemma LastElementOfName(name: string)
    requires '/' !in name
    ensures LastElement(name) == name
  {
  }

  lemma {:induction false} LastElementAfterSlash(prefix: string, name: string)
    requires '/' !in name
    ensures LastElement(prefix + "/" + name) == name
    decreases |name|
  {
    var p := prefix + "/" + name;
    if name != [] {
      var init := name[..|name| - 1];
      assert p[..|p| - 1] == prefix + "/" + init;
      LastElementAfterSlash(prefix, init);
      assert name == init + [name[|name| - 1]];
    }
  }

  /** filepath.Join(dir, name) for a clean element `name`: the empty directory
      and "." contribute nothing, trailing slashes of `dir` collapse to one. */
  function JoinPath(dir: string, name: string): string
  {
    if dir == [] then name
    else
      var d := TrimTrailingSlashes(dir);
      if d == [] then "/" + name
      else if d == "." then name
      else d + "/" + name
  }

  /** The entry a walk reaches by joining a child name keeps that name as its base. */
  lemma BaseOfJoin(dir: string, name: string)
    requires name != [] && '/' !in name
    ensures Base(JoinPath(dir, name)) == name
  {
    var p := JoinPath(dir, name);
    if p != name {
      var d := TrimTrailingSlashes(dir);
      var prefix := if d == [] then [] else d;
      assert p == prefix + "/" + name;
      LastElementAfterSlash(prefix, name);
      assert TrimTrailingSlashes(p) == p;
    }
  }

  /** The relative path filepath.Rel gives for a child of the entry whose
      relative path is `rel`; the root itself is ".". */
  function ChildRel(rel: string, name: string): string
  {
    if rel == "." then name else rel + "/" + name
  }

  /** filepath.Ext: the suffix from the last '.' of the final element, or "". */
  function Ext(path: string): (r: string)
    ensures r != [] ==> r[0] == '.' && HasSuffix(path, r) && '/' !in r && '.' !in r[1..]
    ensures r == [] ==> forall k :: 0 <= k < |path| && '/' !in path[k..] ==> path[k] != '.'
  {
    if path == [] then []
    else
      var c := path[|path| - 1];
      var init := path[..|path| - 1];
      if c == '/' then
        assert forall k :: 0 <= k < |path| ==> path[k..][|path| - 1 - k] == '/';
        []
      else if c == '.' then "."
      else
        var e := Ext(init);
        assert forall k :: 0 <= k < |init| ==> path[k..] == init[k..] + [c];
        if e == [] then [] else e + [c]
  }

  /** A final extension is judged alone: whatever precedes it does not matter. */
  lemma {:induction false} ExtOfSuffix(stem: string, ext: string)
    requires |ext| >= 1 && ext[0] == '.'
    requires '.' !in ext[1..] && '/' !in ext
    ensures Ext(stem + ext) == ext
    decreases |ext|
  {
    var p := stem + ext;
    if |ext| > 1 {
      var init := ext[..|ext| - 1];
      assert p[..|p| - 1] == stem + init;
      assert ext[|ext| - 1] in ext[1..];
      assert init[1..] == ext[1..|ext| - 1];
      ExtOfSuffix(stem, init);
    }
  }

  /** Lower-casing a path lower-cases its extension and nothing else moves. */
  lemma {:induction false} ExtOfLower(path: string)
    ensures Ext(Lower(path)) == Lower(Ext(path))
    decreases |path|
  {
    if path != [] {
      var c := path[|path| - 1];
      var init := path[..|path| - 1];
      var lp := Lower(path);
      var lc := lp[|lp| - 1];
      assert lc == LowerChar(c);
      assert lp[..|lp| - 1] == Lower(init);
      if c == '/' {
        assert Ext(lp) == [];
      } else if c == '.' {
        assert Ext(lp) == ".";
        assert Lower(".") == ".";
      } else {
        assert lc != '/' && lc != '.';
        ExtOfLower(init);
        var e := Ext(init);
        assert Ext(lp) == if Lower(e) == [] then [] else Lower(e) + [lc];
        if e != [] {
          LowerAppend(e, [c]);
          assert Lower([c]) == [lc];
        }
      }
    }
  }

  /** isHidden: the base name starts with a dot. */
  predicate IsHidden(path: string)
  {
    HasPrefix(Base(path), ".")
  }
}

=== FILE: printer.dfy ===
/**
 printMatch: the text written for one matching line.  main.go and
 main_v2.go collect the filename and line-number segments in a slice and
 join it with ":"; rg.go writes each segment followed by ":" into a
 builder.  Both end the output with a newline.
 */
module Printer {
  import opened Strings
  import opened Markers
  import opened Highlight
  import opened RgHighlight
  import opened Options

  /** A filename or line-number segment, wrapped in `color` and Reset when
      colour is on. */
  function Segment(text: string, color: string, on: bool): string
  {
    if on then color + text + Reset else text
  }

  /** The `parts` slice of main.go's printMatch. */
  function Parts(filename: string, lineNum: nat, c: Config): (parts: seq<string>)
    ensures |parts| == (if c.withFilename then 1 else 0) + (if c.lineNumber then 1 else 0)
    ensures c.withFilename ==> parts[0] == Segment(filename, Purple, c.color)
    ensures c.lineNumber ==> parts[|parts| - 1] == Segment(Decimal(lineNum), Green, c.color)
  {
    (if c.withFilename then [Segment(filename, Purple, c.color)] else [])
      + (if c.lineNumber then [Segment(Decimal(lineNum), Green, c.color)] else [])
  }

  /** The line as printed: highlighted only when colour is on. */
  function DisplayLine(line: string, c: Config): string
  {
    if c.color then HighlightMatches(line, c.pattern, c.fixedStrings, c.ignoreCase) else line
  }

  /** printMatch of main.go and main_v2.go, newline included. */
  function PrintMatch(filename: string, lineNum: nat, line: string, c: Config): (out: string)
    ensures HasSuffix(out, DisplayLine(line, c) + "\n")
  {
    var parts := Parts(filename, lineNum, c);
    if |parts| > 0 then Join(parts, ":") + ":" + DisplayLine(line, c) + "\n"
    else DisplayLine(line, c) + "\n"
  }

  /** What rg.go's printMatch writes before the line: each present segment
      followed by ":". */
  function RgPrefix(filename: string, lineNum: nat, c: Config): string
  {
    (if c.withFilename then Segment(filename, Purple, c.color) + ":" else "")
      + (if c.lineNumber then Segment(Decimal(lineNum), Green, c.color) + ":" else "")
  }

  /** printMatch of rg.go, newline included; its highlighter may panic. */
  function RgPrintMatch(filename: string, lineNum: nat, line: string, c: Config): (r: Outcome<string>)
    ensures !c.color ==> r.Done?
    ensures r.Done? ==> HasPrefix(r.value, RgPrefix(filename, lineNum, c))
  {
    var shown := if c.color then RgHighlightMatches(line, c.pattern, c.fixedStrings, c.ignoreCase) else Done(line);
    match shown
    case Panic => Panic
    case Done(text) => Done(RgPrefix(filename, lineNum, c) + text + "\n")
  }

  /** Joining the segments with ":" and then writing ":" and the line is
      the same as writing each segment followed by ":". */
  lemma PrintMatchIsPrefixed(filename: string, lineNum: nat, line: string, c: Config)
    ensures PrintMatch(filename, lineNum, line, c) == RgPrefix(filename, lineNum, c) + DisplayLine(line, c) + "\n"
  {
    var f := Segment(filename, Purple, c.color);
    var n := Segment(Decimal(lineNum), Green, c.color);
    if c.withFilename && c.lineNumber {
      assert Parts(filename, lineNum, c) == [f] + [n];
      JoinCons(f, [n], ":");
    }
  }

  /** With colour off, main.go prints the line alone, or the filename and
      the decimal line number that are asked for, each followed by ":";
      the pattern and matching flags play no part. */
  lemma PrintMatchPlain(filename: string, lineNum: nat, line: string, c: Config, pattern: string, fixedStrings: bool, ignoreCase: bool)
    requires !c.color
    ensures var out := PrintMatch(filename, lineNum, line, c);
      && (!c.withFilename && !c.lineNumber ==> out == line + "\n")
      && (c.withFilename && !c.lineNumber ==> out == filename + ":" + line + "\n")
      && (!c.withFilename && c.lineNumber ==> out == Decimal(lineNum) + ":" + line + "\n")
      && (c.withFilename && c.lineNumber ==> out == filename + ":" + Decimal(lineNum) + ":" + line + "\n")
    ensures PrintMatch(filename, lineNum, line, c)
      == PrintMatch(filename, lineNum, line, c.(pattern := pattern, fixedStrings := fixedStrings, ignoreCase := ignoreCase))
  {
    PrintMatchIsPrefixed(filename, lineNum, line, c);
    PrintMatchIsPrefixed(filename, lineNum, line, c.(pattern := pattern, fixedStrings := fixedStrings, ignoreCase := ignoreCase));
  }

  /** rg.go prints what main.go prints whenever its highlighter returns
      what main.go's does: always with colour off, and with colour on for a
      non-empty case-sensitive pattern. */
  lemma RgPrintMatchAgrees(filename: string, lineNum: nat, line: string, c: Config)
    ensures !c.color ==> RgPrintMatch(filename, lineNum, line, c) == Done(PrintMatch(filename, lineNum, line, c))
    ensures c.color && !c.ignoreCase && c.pattern != [] ==>
      RgPrintMatch(filename, lineNum, line, c) == Done(PrintMatch(filename, lineNum, line, c))
    ensures (RgHighlightMatches(line, c.pattern, c.fixedStrings, c.ignoreCase)
               == Done(HighlightMatches(line, c.pattern, c.fixedStrings, c.ignoreCase))) ==>
      RgPrintMatch(filename, lineNum, line, c) == Done(PrintMatch(filename, lineNum, line, c))
  {
    PrintMatchIsPrefixed(filename, lineNum, line, c);
    RgCaseSensitiveAgrees(line, c.pattern, c.fixedStrings);
  }

  /** The decimal digits of a line number hold no marker. */
  lemma DecimalMarkerFree(n: nat)
    ensures MarkerFree(Decimal(n))
  {
    var d := Decimal(n);
    forall k | 0 <= k < |d| ensures d[k] != Esc {
      assert IsDigit(d[k]);
    }
  }

  /** Deleting the markers from a coloured segment and its ":" leaves the
      plain segment and ":". */
  lemma SegmentStrip(text: string, color: string, rest: string)
    requires color == Purple || color == Green
    requires MarkerFree(text)
    ensures StripMarkers(Segment(text, color, true) + ":" + rest) == Segment(text, color, false) + ":" + StripMarkers(rest)
  {
    Associate5(color, text, Reset, ":", rest);
    StripMarker(color, text + (Reset + (":" + rest)));
    StripPlain(text, Reset + (":" + rest));
    StripMarker(Reset, ":" + rest);
    assert MarkerFree(":");
    StripPlain(":", rest);
    Associate3(text, ":", StripMarkers(rest));
  }

  /** Deleting the markers from rg.go's coloured prefix leaves the plain one. */
  lemma PrefixStrip(filename: string, lineNum: nat, c: Config, rest: string)
    requires MarkerFree(filename)
    ensures StripMarkers(RgPrefix(filename, lineNum, c.(color := true)) + rest)
      == RgPrefix(filename, lineNum, c.(color := false)) + StripMarkers(rest)
  {
    var on, off := c.(color := true), c.(color := false);
    var nOn := if c.lineNumber then Segment(Decimal(lineNum), Green, true) + ":" else "";
    var nOff := if c.lineNumber then Segment(Decimal(lineNum), Green, false) + ":" else "";
    DecimalMarkerFree(lineNum);
    if c.lineNumber {
      SegmentStrip(Decimal(lineNum), Green, rest);
      Associate3(Segment(Decimal(lineNum), Green, true), ":", rest);
    } else {
      assert nOn + rest == rest;
      assert nOff + StripMarkers(rest) == StripMarkers(rest);
    }
    assert StripMarkers(nOn + rest) == nOff + StripMarkers(rest);
    if c.withFilename {
      SegmentStrip(filename, Purple, nOn + rest);
      Associate3(Segment(filename, Purple, true), ":", nOn + rest);
      Associate3(Segment(filename, Purple, true) + ":", nOn, rest);
      Associate3(Segment(filename, Purple, false) + ":", nOff, StripMarkers(rest));
    } else {
      assert RgPrefix(filename, lineNum, on) == nOn;
      assert RgPrefix(filename, lineNum, off) == nOff;
    }
  }

  /** Deleting the markers from a highlighted line, and from what follows
      it, gives back the line, then the rest stripped. */
  lemma HighlightStripThen(line: string, pattern: string, fixedStrings: bool, ignoreCase: bool, rest: string)
    requires MarkerFree(line)
    ensures StripMarkers(HighlightMatches(line, pattern, fixedStrings, ignoreCase) + rest) == line + StripMarkers(rest)
  {
    if pattern == [] {
      StripPlain(line, rest);
    } else {
      HighlightMatchesPieces(line, pattern, fixedStrings, ignoreCase);
      var ps := Pieces(line, pattern, ignoreCase);
      MarkLoopFree(line, Fold(line, ignoreCase), Fold(pattern, ignoreCase), |pattern|, 0);
      MarkLoopText(line, Fold(line, ignoreCase), Fold(pattern, ignoreCase), |pattern|, 0);
      StripRenderThen(ps, rest);
    }
  }

  /** Colour adds markers and nothing else: deleting them from the coloured
      output gives the uncoloured output, for a filename and line that hold
      no marker themselves. */
  lemma PrintMatchColorStrips(filename: string, lineNum: nat, line: string, c: Config)
    requires MarkerFree(filename) && MarkerFree(line)
    ensures StripMarkers(PrintMatch(filename, lineNum, line, c.(color := true)))
      == PrintMatch(filename, lineNum, line, c.(color := false))
  {
    var on, off := c.(color := true), c.(color := false);
    PrintMatchIsPrefixed(filename, lineNum, line, on);
    PrintMatchIsPrefixed(filename, lineNum, line, off);
    var h := HighlightMatches(line, c.pattern, c.fixedStrings, c.ignoreCase);
    assert DisplayLine(line, on) == h;
    Associate3(RgPrefix(filename, lineNum, on), h, "\n");
    PrefixStrip(filename, lineNum, c, h + "\n");
    HighlightStripThen(line, c.pattern, c.fixedStrings, c.ignoreCase, "\n");
    assert MarkerFree("\n");
    StripMarkersOfFree("\n");
    Associate3(RgPrefix(filename, lineNum, off), line, "\n");
  }
}

=== FILE: rg_highlight.dfy ===
/**
 The highlighter of rg.go.  Its case-insensitive mode rewrites `result` in
 place: it searches a lower-cased copy of `result`, but copies the span to
 wrap out of the unmodified `line` at that same offset.  After the first
 wrap the two strings no longer line up, so later spans come from the wrong
 place, and a slice past the end of `line` makes the Go program panic.
 */
module RgHighlight {
  import opened Strings
  import opened Markers
  import opened Highlight

  /** What a computation that may panic gives back. */
  datatype Outcome<T> = Done(value: T) | Panic

  /** The loop of rg.go's case-insensitive branch, from `index` on, with the
      rewritten `result` so far.  `plen` is len(pattern); `lowerPattern` is
      what every search looks for. */
  function RgLoop(line: string, lowerPattern: string, plen: nat, result: string, index: nat): Outcome<string>
    requires index <= |result| && |lowerPattern| == plen
    decreases |line| + |result| + 1 - 2 * index
  {
    var pos := Index(Lower(result)[index..], lowerPattern);
    if pos == -1 then Done(result)
    else
      var at := index + pos;
      if at + plen > |line| then Panic
      else
        var h := Red + line[at..at + plen] + Reset;
        RgLoop(line, lowerPattern, plen, result[..at] + h + result[at + plen..], at + |h|)
  }

  /** One wrap of the loop: the match found at `at` in the lowered `result`
      is replaced by the span of `line` at the same offset, and the search
      resumes after the inserted text. */
  lemma RgLoopStep(line: string, lowerPattern: string, plen: nat, result: string, index: nat, at: nat)
    requires index <= |result| && |lowerPattern| == plen
    requires Index(Lower(result)[index..], lowerPattern) == at - index && index <= at
    requires at + plen <= |line|
    ensures at + plen <= |result|
    ensures var h := Red + line[at..at + plen] + Reset;
      RgLoop(line, lowerPattern, plen, result, index)
        == RgLoop(line, lowerPattern, plen, result[..at] + h + result[at + plen..], at + |h|)
  {
    var h := Red + line[at..at + plen] + Reset;
    var o := RgLoop(line, lowerPattern, plen, result, index);
    assert o == RgLoop(line, lowerPattern, plen, result[..at] + h + result[at + plen..], at + |h|);
  }

  /** RgLoopStep with the rewritten text and the resume position named. */
  lemma RgLoopWrap(line: string, lowerPattern: string, plen: nat, result: string, index: nat, at: nat, r: string, resume: nat)
    requires index <= |result| && |lowerPattern| == plen
    requires Index(Lower(result)[index..], lowerPattern) == at - index && index <= at
    requires at + plen <= |line| && at + plen <= |result|
    requires r == result[..at] + (Red + line[at..at + plen] + Reset) + result[at + plen..]
    requires resume == at + plen + 9
    ensures resume <= |r|
    ensures RgLoop(line, lowerPattern, plen, result, index) == RgLoop(line, lowerPattern, plen, r, resume)
  {
    RgLoopStep(line, lowerPattern, plen, result, index, at);
  }

  /** The search fails: the loop stops with `result`. */
  lemma RgLoopDone(line: string, lowerPattern: string, plen: nat, result: string, index: nat)
    requires index <= |result| && |lowerPattern| == plen
    requires Index(Lower(result)[index..], lowerPattern) == -1
    ensures RgLoop(line, lowerPattern, plen, result, index) == Done(result)
  {
  }

  /** The search succeeds past the end of `line`: slicing `line` panics. */
  lemma RgLoopPanic(line: string, lowerPattern: string, plen: nat, result: string, index: nat, at: nat)
    requires index <= |result| && |lowerPattern| == plen
    requires Index(Lower(result)[index..], lowerPattern) == at - index && index <= at
    requires at + plen > |line|
    ensures RgLoop(line, lowerPattern, plen, result, index) == Panic
  {
  }

  /** The text around a span of `result` replaced by `h`: what precedes
      the new position, and what follows it, before and after lowering. */
  lemma WrappedParts(result: string, at: nat, plen: nat, h: string)
    requires at + plen <= |result|
    ensures var r := result[..at] + h + result[at + plen..];
      && r[..at + |h|] == result[..at] + h
      && r[at + |h|..] == result[at + plen..]
      && Lower(r)[at + |h|..] == Lower(result)[at + plen..]
  {
    var r := result[..at] + h + result[at + plen..];
    var i := at + |h|;
    assert r[i..] == result[at + plen..];
    LowerSlice(r, i, |r|);
    LowerSlice(result, at + plen, |result|);
    assert r[i..|r|] == r[i..];
    assert result[at + plen..|result|] == result[at + plen..];
  }

  /** rg.go's case-insensitive highlighting: the loop starts on `line`
      itself, with no check for an empty line or pattern. */
  function RgHighlightIgnoreCase(line: string, pattern: string): Outcome<string>
  {
    RgLoop(line, Lower(pattern), |pattern|, line, 0)
  }

  /** rg.go's highlightMatches.  The branches for the two values of
      `fixedStrings` are the same code, so the result does not depend on it. */
  function RgHighlightMatches(line: string, pattern: string, fixedStrings: bool, ignoreCase: bool): (r: Outcome<string>)
    ensures ignoreCase ==> r == RgHighlightIgnoreCase(line, pattern)
    ensures !ignoreCase ==> r == Done(ReplaceAll(line, pattern, Red + pattern + Reset))
  {
    if !fixedStrings then
      if ignoreCase then RgHighlightIgnoreCase(line, pattern)
      else Done(ReplaceAll(line, pattern, Red + pattern + Reset))
    else if ignoreCase then RgHighlightIgnoreCase(line, pattern)
    else Done(ReplaceAll(line, pattern, Red + pattern + Reset))
  }

  /** With an empty pattern every search succeeds at once, each turn inserts
      Red + Reset and moves nine characters on, and once the position passes
      the end of `line` the slice panics. */
  lemma {:induction false} EmptyPatternLoopPanics(line: string, result: string, index: nat)
    requires index <= |result|
    ensures RgLoop(line, "", 0, result, index) == Panic
    decreases |line| + 1 - index
  {
    var x := Lower(result)[index..];
    assert Index(x, "") == 0 by {
      assert MatchFrom(x, "", 0, 0);
    }
    if index > |line| {
      RgLoopPanic(line, "", 0, result, index, index);
    } else {
      RgLoopStep(line, "", 0, result, index, index);
      var h := Red + line[index..index] + Reset;
      EmptyPatternLoopPanics(line, result[..index] + h + result[index..], index + |h|);
    }
  }

  /** An empty pattern under ignore-case makes rg.go panic, whatever the
      line; main_v2.go returns the line unchanged. */
  lemma RgEmptyPatternPanics(line: string, fixedStrings: bool)
    ensures RgHighlightMatches(line, "", fixedStrings, true) == Panic
    ensures HighlightMatches(line, "", fixedStrings, true) == line
  {
    EmptyPatternLoopPanics(line, line, 0);
  }

  /** In case-sensitive mode rg.go and main_v2.go write the same text for a
      non-empty pattern; for the empty pattern main_v2.go returns the line
      while strings.ReplaceAll puts Red + Reset around every byte (Go: around
      every UTF-8 sequence). */
  lemma RgCaseSensitiveAgrees(line: string, pattern: string, fixedStrings: bool)
    ensures pattern != [] ==>
      RgHighlightMatches(line, pattern, fixedStrings, false) == Done(HighlightMatches(line, pattern, fixedStrings, false))
    ensures pattern == [] ==>
      RgHighlightMatches(line, pattern, fixedStrings, false) == Done(Interleave(line, Red + Reset))
  {
    assert Red + [] + Reset == Red + Reset;
  }

  /** strings.Index of a one-character pattern that opens the text. */
  lemma IndexOfLeadingChar(x: string, c: char)
    requires |x| > 0 && x[0] == c
    ensures Index(x, [c]) == 0
  {
    IndexOfChar(x, c);
  }

  /** strings.Index of a one-character pattern that does not occur. */
  lemma IndexOfAbsentChar(x: string, c: char)
    requires forall k :: 0 <= k < |x| ==> x[k] != c
    ensures Index(x, [c]) == -1
  {
    IndexOfChar(x, c);
  }

  /** The searches of both highlighters when `sub` occurs in `s` only at `p`. */
  lemma SingleOccurrence(s: string, sub: string, p: nat)
    requires |sub| > 0 && OccursAt(s, sub, p)
    requires forall j :: j != p ==> !OccursAt(s, sub, j)
    ensures IndexFrom(s, sub, 0) == p && IndexFrom(s, sub, p + |sub|) == -1
  {
    IndexFromSpec(s, sub, 0);
    IndexFromSpec(s, sub, p + |sub|);
  }

  /** main_v2.go on a line with one match: one marked piece between two
      plain ones. */
  lemma SingleMatchMarked(line: string, pattern: string, p: nat, r: string)
    requires |pattern| > 0 && p + |pattern| <= |line|
    requires IndexFrom(Lower(line), Lower(pattern), 0) == p
    requires IndexFrom(Lower(line), Lower(pattern), p + |pattern|) == -1
    requires r == line[..p] + (Red + line[p..p + |pattern|] + Reset) + line[p + |pattern|..]
    ensures HighlightIgnoreCase(line, pattern) == r
  {
    var n := |pattern|;
    var ps := [Plain(line[..p]), Marked(line[p..p + n]), Plain(line[p + n..])];
    assert MarkLoop(line, Lower(line), Lower(pattern), n, 0) == ps by {
      SinglePieces(line, Lower(line), Lower(pattern), n, p, ps);
    }
    assert Render(ps) == r by {
      RenderThree(line[..p], line[p..p + n], line[p + n..]);
    }
  }

  /** The loop's pieces on a line with one match. */
  lemma SinglePieces(line: string, ll: string, lp: string, n: nat, p: nat, ps: seq<Piece>)
    requires |ll| == |line| && n > 0 && p + n <= |line|
    requires IndexFrom(ll, lp, 0) == p && IndexFrom(ll, lp, p + n) == -1
    requires ps == [Plain(line[..p]), Marked(line[p..p + n]), Plain(line[p + n..])]
    ensures MarkLoop(line, ll, lp, n, 0) == ps
  {
    MarkLoopStep(line, ll, lp, n, 0, p, p + n);
    MarkLoopEnd(line, ll, lp, n, p + n);
    assert line[0..p] == line[..p];
  }

  /** Rendering a plain, a marked and a plain piece. */
  lemma RenderThree(a: string, b: string, c: string)
    ensures Render([Plain(a), Marked(b), Plain(c)]) == a + (Red + b + Reset) + c
  {
    RenderAppend([Plain(a), Marked(b)], [Plain(c)]);
    RenderPair(a, b);
    assert Render([Plain(c)]) == c;
  }

  /** rg.go on a line with one match: the first search finds it, and the
      second, past the inserted markers, finds nothing. */
  lemma SingleMatchRg(line: string, pattern: string, p: nat, r: string)
    requires |pattern| > 0 && p + |pattern| <= |line|
    requires IndexFrom(Lower(line), Lower(pattern), 0) == p
    requires IndexFrom(Lower(line), Lower(pattern), p + |pattern|) == -1
    requires r == line[..p] + (Red + line[p..p + |pattern|] + Reset) + line[p + |pattern|..]
    ensures RgHighlightIgnoreCase(line, pattern) == Done(r)
  {
    var n := |pattern|;
    var lp := Lower(pattern);
    var resume: nat := p + n + 9;
    assert RgLoop(line, lp, n, line, 0) == RgLoop(line, lp, n, r, resume) by {
      SingleFirstWrap(line, lp, n, p, r, resume);
    }
    assert RgLoop(line, lp, n, r, resume) == Done(r) by {
      SingleNoSecond(line, lp, n, p, r, resume);
      RgLoopDone(line, lp, n, r, resume);
    }
  }

  /** The first turn of SingleMatchRg: the match at `p` is wrapped. */
  lemma SingleFirstWrap(line: string, lp: string, n: nat, p: nat, r: string, resume: nat)
    requires |lp| == n && p + n <= |line|
    requires IndexFrom(Lower(line), lp, 0) == p
    requires r == line[..p] + (Red + line[p..p + n] + Reset) + line[p + n..]
    requires resume == p + n + 9
    ensures resume <= |r|
    ensures RgLoop(line, lp, n, line, 0) == RgLoop(line, lp, n, r, resume)
  {
    var ll := Lower(line);
    assert Index(ll[0..], lp) == p by {
      IndexOfSuffix(ll, lp, 0);
      assert ll[0..] == ll;
    }
    RgLoopWrap(line, lp, n, line, 0, p, r, resume);
  }

  /** The second turn of SingleMatchRg: past the inserted text the lowered
      result is the lowered rest of the line, which holds no match. */
  lemma SingleNoSecond(line: string, lp: string, n: nat, p: nat, r: string, resume: nat)
    requires |lp| == n && p + n <= |line|
    requires IndexFrom(Lower(line), lp, p + n) == -1
    requires r == line[..p] + (Red + line[p..p + n] + Reset) + line[p + n..]
    requires resume == p + n + 9
    ensures resume <= |r|
    ensures Index(Lower(r)[resume..], lp) == -1
  {
    var ll := Lower(line);
    var next := p + n;
    assert Index(ll[next..], lp) == -1 by {
      IndexOfSuffix(ll, lp, next);
    }
    WrappedParts(line, p, n, Red + line[p..next] + Reset);
  }

  /** When the lowered line holds the lowered pattern exactly once, the
      offsets of the lowered `result` and of `line` agree up to that match,
      so rg.go writes what main_v2.go writes: the one match wrapped in
      Red and Reset, with its original casing. */
  lemma RgSingleMatchAgrees(line: string, pattern: string, p: nat)
    requires |pattern| > 0
    requires OccursAt(Lower(line), Lower(pattern), p)
    requires forall j :: j != p ==> !OccursAt(Lower(line), Lower(pattern), j)
    ensures RgHighlightIgnoreCase(line, pattern) == Done(HighlightIgnoreCase(line, pattern))
  {
    SingleOccurrence(Lower(line), Lower(pattern), p);
    var r := line[..p] + (Red + line[p..p + |pattern|] + Reset) + line[p + |pattern|..];
    SingleMatchMarked(line, pattern, p, r);
    SingleMatchRg(line, pattern, p, r);
  }

  /** main_v2.go on two leading "a"s followed by text without one,
      highlighting "a" case-insensitively: both leading letters are marked. */
  lemma TwoLeadingMatches(rest: string)
    requires forall k :: 0 <= k < |rest| ==> LowerChar(rest[k]) != 'a'
    ensures HighlightIgnoreCase("aa" + rest, "a")
      == (Red + "a" + Reset) + (Red + "a" + Reset) + rest
  {
    var line := "aa" + rest;
    assert Lower("a") == "a";
    TwoLeadingLoop(rest);
    TwoMarksRender(rest);
  }

  /** The loop of TwoLeadingMatches: two one-letter matches, then the rest. */
  lemma TwoLeadingLoop(rest: string)
    requires forall k :: 0 <= k < |rest| ==> LowerChar(rest[k]) != 'a'
    ensures var line := "aa" + rest;
      MarkLoop(line, Lower(line), "a", 1, 0) == [Plain([]), Marked("a")] + ([Plain([]), Marked("a")] + [Plain(rest)])
  {
    var line := "aa" + rest;
    var ll := Lower(line);
    assert ll[0] == 'a' && ll[1] == 'a';
    forall k | 2 <= k < |ll| ensures ll[k] != 'a' {
      assert line[k] == rest[k - 2];
    }
    IndexFromSpec(ll, "a", 2);
    MarkLoopStep(line, ll, "a", 1, 0, 0, 1);
    MarkLoopStep(line, ll, "a", 1, 1, 1, 2);
    MarkLoopEnd(line, ll, "a", 1, 2);
    assert line[0..0] == [] && line[1..1] == [];
    assert line[0..1] == "a" && line[1..2] == "a" && line[2..] == rest;
  }

  /** Two marked "a"s, then plain `rest`, as written. */
  lemma TwoMarksRender(rest: string)
    ensures Render([Plain([]), Marked("a")] + ([Plain([]), Marked("a")] + [Plain(rest)]))
      == (Red + "a" + Reset) + (Red + "a" + Reset) + rest
  {
    var m := Marked("a");
    RenderPair([], "a");
    RenderAppend([Plain([]), m], [Plain([]), m] + [Plain(rest)]);
    RenderAppend([Plain([]), m], [Plain(rest)]);
    assert Render([Plain(rest)]) == rest;
  }

  /** rg.go on two leading "a"s followed by `rest`, which holds no "a" in
      either case.  The second search finds the second "a" at offset 10 of
      the rewritten text, and rg.go slices `line` at that offset: a line of
      fewer than 11 characters panics, and a longer one gets `rest[8]`
      wrapped where the second "a" should be.  main_v2.go marks both "a"s
      (lemma TwoLeadingMatches). */
  lemma RgTwoLeadingMatches(rest: string)
    requires forall k :: 0 <= k < |rest| ==> LowerChar(rest[k]) != 'a'
    ensures |rest| < 9 ==> RgHighlightIgnoreCase("aa" + rest, "a") == Panic
    ensures |rest| >= 9 ==>
      RgHighlightIgnoreCase("aa" + rest, "a") == Done((Red + "a" + Reset) + (Red + [rest[8]] + Reset) + rest)
  {
    var line := "aa" + rest;
    var h1 := Red + "a" + Reset;
    var r1 := h1 + ("a" + rest);
    assert Lower("a") == "a";
    assert Index(Lower(line)[0..], "a") == 0 by {
      IndexOfLeadingChar(Lower(line)[0..], 'a');
    }
    assert r1 == line[..0] + (Red + line[0..1] + Reset) + line[1..] by {
      assert line[..0] == [] && line[0..1] == "a" && line[1..] == "a" + rest;
    }
    RgLoopWrap(line, "a", 1, line, 0, 0, r1, 10);
    assert Index(Lower(r1)[10..], "a") == 0 by {
      assert Lower(r1)[10..][0] == LowerChar(r1[10]) == 'a';
      IndexOfLeadingChar(Lower(r1)[10..], 'a');
    }
    if |rest| < 9 {
      RgLoopPanic(line, "a", 1, r1, 10, 10);
    } else {
      RgTwoLeadingTail(rest, r1);
    }
  }

  /** The second turn of RgTwoLeadingMatches, on a line of 11 characters
      or more: it wraps `line[10]`, which is `rest[8]`, and the third
      search finds nothing. */
  lemma RgTwoLeadingTail(rest: string, r1: string)
    requires forall k :: 0 <= k < |rest| ==> LowerChar(rest[k]) != 'a'
    requires |rest| >= 9
    requires r1 == (Red + "a" + Reset) + ("a" + rest)
    requires Index(Lower(r1)[10..], "a") == 0
    ensures RgLoop("aa" + rest, "a", 1, r1, 10) == Done((Red + "a" + Reset) + (Red + [rest[8]] + Reset) + rest)
  {
    var line := "aa" + rest;
    var h1 := Red + "a" + Reset;
    var h2 := Red + line[10..11] + Reset;
    var r2 := r1[..10] + h2 + r1[11..];
    assert r1[..10] == h1 && r1[11..] == rest;
    RgLoopWrap(line, "a", 1, r1, 10, 10, r2, 20);
    SecondWrapLeavesNoA(rest, r1, h2, r2);
    RgLoopDone(line, "a", 1, r2, 20);
    assert line[10..11] == [rest[8]];
  }

  /** After the second wrap, the text past it is `rest` again, which holds
      no "a". */
  lemma SecondWrapLeavesNoA(rest: string, r1: string, h2: string, r2: string)
    requires forall k :: 0 <= k < |rest| ==> LowerChar(rest[k]) != 'a'
    requires |r1| >= 11 && r1[11..] == rest && |h2| == 10
    requires r2 == r1[..10] + h2 + r1[11..]
    ensures Index(Lower(r2)[20..], "a") == -1
  {
    var tail := Lower(r1)[11..];
    WrappedParts(r1, 10, 1, h2);
    forall k | 0 <= k < |tail| ensures tail[k] != 'a' {
      assert tail[k] == LowerChar(r1[11 + k]);
      assert r1[11 + k] == rest[k];
    }
    IndexOfAbsentChar(tail, 'a');
  }

  /** The two inputs that show the faults of rg.go's case-insensitive
      highlighting, next to what main_v2.go writes for them. */
  lemma RgSecondMatchExamples()
    ensures RgHighlightIgnoreCase("aa", "a") == Panic
    ensures HighlightIgnoreCase("aa", "a") == (Red + "a" + Reset) + (Red + "a" + Reset)
    ensures RgHighlightIgnoreCase("aabbbbbbbbb", "a")
      == Done((Red + "a" + Reset) + (Red + "b" + Reset) + "bbbbbbbbb")
    ensures HighlightIgnoreCase("aabbbbbbbbb", "a")
      == (Red + "a" + Reset) + (Red + "a" + Reset) + "bbbbbbbbb"
  {
    var b := "bbbbbbbbb";
    RgTwoLeadingMatches([]);
    TwoLeadingMatches([]);
    assert "aa" + [] == "aa";
    RgTwoLeadingMatches(b);
    TwoLeadingMatches(b);
    assert "aa" + b == "aabbbbbbbbb";
  }
}

=== FILE: scan.dfy ===
/**
 searchInFile as a function of the file's contents: the sniff, the
 numbered scan of the lines, the truncation applied before matching, and
 the scanner error that comes back.  main.go and main_v2.go share one
 searchInFile; rg.go's neither sniffs nor truncates.
 */
module Scan {
  import opened Strings
  import opened Matcher
  import opened Binary
  import opened Options

  /** A file that could be opened: its bytes, the lines the scanner
      produced from them (up to an error, if any), and whether it stopped on
      an error.  How lines are cut out of the bytes is not modelled. */
  datatype FileData = FileData(bytes: seq<byte>, lines: seq<string>, scanError: bool)

  /** A matching line: its 1-based number and the text that was matched
      and handed to printMatch. */
  datatype Hit = Hit(lineNum: nat, line: string)

  /** What searchInFile did: the lines it printed and whether it returned
      an error. */
  datatype ScanResult = ScanResult(hits: seq<Hit>, failed: bool)

  /** The text a scanned line is matched as. */
  function Shown(line: string, truncate: bool): string
  {
    if truncate then Truncate(line) else line
  }

  /** The line loop of searchInFile from the line with index `i` (number
      `i + 1`) on, given the text each line is matched as (`shown`) and
      whether it matched (`sel`): the hits are the selected lines, in
      order, each with its number. */
  function ScanFrom(shown: seq<string>, sel: seq<bool>, i: nat): (hits: seq<Hit>)
    requires |sel| == |shown| && i <= |shown|
    ensures forall k :: 0 <= k < |hits| ==>
      && i < hits[k].lineNum <= |shown|
      && hits[k].line == shown[hits[k].lineNum - 1]
      && sel[hits[k].lineNum - 1]
    ensures forall k, l :: 0 <= k < l < |hits| ==> hits[k].lineNum < hits[l].lineNum
    decreases |shown| - i
  {
    if i == |shown| then []
    else
      var rest := ScanFrom(shown, sel, i + 1);
      if sel[i] then
        var hits := [Hit(i + 1, shown[i])] + rest;
        assert forall k :: 1 <= k < |hits| ==> hits[k] == rest[k - 1];
        hits
      else rest
  }

  /** No selected line is left out. */
  lemma {:induction false} ScanFromComplete(shown: seq<string>, sel: seq<bool>, i: nat, j: nat)
    requires |sel| == |shown| && i <= j < |shown| && sel[j]
    ensures exists k :: 0 <= k < |ScanFrom(shown, sel, i)| && ScanFrom(shown, sel, i)[k].lineNum == j + 1
    decreases |shown| - i
  {
    var hits := ScanFrom(shown, sel, i);
    if j == i {
      assert hits[0].lineNum == j + 1;
    } else {
      ScanFromComplete(shown, sel, i + 1, j);
      var rest := ScanFrom(shown, sel, i + 1);
      var k :| 0 <= k < |rest| && rest[k].lineNum == j + 1;
      if sel[i] {
        assert hits[k + 1] == rest[k];
      } else {
        assert hits == rest;
      }
    }
  }

  /** The text each line is matched as. */
  function ShownLines(lines: seq<string>, truncate: bool): (shown: seq<string>)
    ensures |shown| == |lines|
    ensures forall j :: 0 <= j < |lines| ==> shown[j] == Shown(lines[j], truncate)
  {
    seq(|lines|, j requires 0 <= j < |lines| => Shown(lines[j], truncate))
  }

  /** Which lines match. */
  function Selection(shown: seq<string>, c: Config): (sel: seq<bool>)
    ensures |sel| == |shown|
    ensures forall j :: 0 <= j < |shown| ==> sel[j] == MatchesPattern(shown[j], c.pattern, c.fixedStrings, c.ignoreCase)
  {
    seq(|shown|, j requires 0 <= j < |shown| => MatchesPattern(shown[j], c.pattern, c.fixedStrings, c.ignoreCase))
  }

  /** All the hits of a scan. */
  function ScanLines(lines: seq<string>, c: Config, truncate: bool): seq<Hit>
  {
    var shown := ShownLines(lines, truncate);
    ScanFrom(shown, Selection(shown, c), 0)
  }

  /** Every hit is a line of the file whose text, as matched, matches. */
  lemma ScanLinesSound(lines: seq<string>, c: Config, truncate: bool)
    ensures var hits := ScanLines(lines, c, truncate);
      forall k :: 0 <= k < |hits| ==>
        && 1 <= hits[k].lineNum <= |lines|
        && MatchesPattern(hits[k].line, c.pattern, c.fixedStrings, c.ignoreCase)
  {
  }

  /** The hits are exactly the matching lines: line number `n` (counting
      from 1, matching or not) is reported, with the text it was matched
      as, exactly when that text matches; the numbers increase. */
  lemma ScanLinesExact(lines: seq<string>, c: Config, truncate: bool, n: nat)
    requires 1 <= n <= |lines|
    ensures var hits := ScanLines(lines, c, truncate);
      && (forall k, l :: 0 <= k < l < |hits| ==> hits[k].lineNum < hits[l].lineNum)
      && (forall k :: 0 <= k < |hits| && hits[k].lineNum == n ==> hits[k].line == Shown(lines[n - 1], truncate))
      && ((exists k :: 0 <= k < |hits| && hits[k].lineNum == n)
          <==> MatchesPattern(Shown(lines[n - 1], truncate), c.pattern, c.fixedStrings, c.ignoreCase))
  {
    var shown := ShownLines(lines, truncate);
    var sel := Selection(shown, c);
    if sel[n - 1] {
      ScanFromComplete(shown, sel, 0, n - 1);
    }
  }

  /** searchInFile of main.go and main_v2.go, given what opening the file
      gave (None: it could not be opened). */
  function SearchInFile(file: Option<FileData>, c: Config): (r: ScanResult)
    ensures file.None? ==> r == ScanResult([], false)
    ensures file.Some? && IsBinaryFile(FirstRead(file.value.bytes)) ==> r == ScanResult([], false)
    ensures file.Some? && !IsBinaryFile(FirstRead(file.value.bytes))
      ==> r.failed == file.value.scanError && r.hits == ScanLines(file.value.lines, c, true)
  {
    match file
    case None => ScanResult([], false)
    case Some(f) =>
      if IsBinaryFile(FirstRead(f.bytes)) then ScanResult([], false)
      else ScanResult(ScanLines(f.lines, c, true), f.scanError)
  }

  /** searchInFile of rg.go: no sniff and no truncation. */
  function RgSearchInFile(file: Option<FileData>, c: Config): (r: ScanResult)
    ensures file.None? ==> r == ScanResult([], false)
    ensures file.Some? ==> r.failed == file.value.scanError
    ensures file.Some? ==> r.hits == ScanLines(file.value.lines, c, false)
  {
    match file
    case None => ScanResult([], false)
    case Some(f) => ScanResult(ScanLines(f.lines, c, false), f.scanError)
  }

  /** On lines no longer than the display limit, truncation changes nothing,
      so main.go's scan and rg.go's scan agree. */
  lemma ShortLinesScanAlike(lines: seq<string>, c: Config)
    requires forall j :: 0 <= j < |lines| ==> |lines[j]| <= MaxDisplayLen
    ensures ScanLines(lines, c, true) == ScanLines(lines, c, false)
  {
    assert ShownLines(lines, true) == ShownLines(lines, false);
  }

  /** A file of one line yields that line as numbered 1 exactly when its
      text, as matched, matches. */
  lemma OneLineScan(line: string, c: Config, truncate: bool)
    ensures var shown := Shown(line, truncate);
      ScanLines([line], c, truncate)
        == if MatchesPattern(shown, c.pattern, c.fixedStrings, c.ignoreCase) then [Hit(1, shown)] else []
  {
    var shown := ShownLines([line], truncate);
    assert ScanFrom(shown, Selection(shown, c), 1) == [];
  }

  /** A long line whose match needs a character found neither in its kept
      prefix nor in the marker text: main.go's scan matches the truncated
      text and reports nothing, rg.go's reports the line. */
  lemma LongLineScans(line: string, c: Config, ch: char)
    requires |line| > MaxDisplayLen
    requires MatchesPattern(line, c.pattern, c.fixedStrings, c.ignoreCase)
    requires ch in Fold(c.pattern, c.ignoreCase)
    requires ch !in Fold(line, c.ignoreCase)[..MaxDisplayLen] && ch !in Fold(TruncationMarker, c.ignoreCase)
    ensures ScanLines([line], c, true) == []
    ensures ScanLines([line], c, false) == [Hit(1, line)]
  {
    LateMatchIsMissed(line, c.pattern, c.fixedStrings, c.ignoreCase, ch);
    OneLineScan(line, c, true);
    OneLineScan(line, c, false);
  }

  /** A binary file is not scanned, and a file that cannot be opened is
      passed over without an error. */
  lemma BinaryFileNotScanned(bytes: seq<byte>, lines: seq<string>, scanError: bool, c: Config, i: nat)
    requires i < |bytes| && i < SniffLen && bytes[i] == 0
    ensures SearchInFile(Some(FileData(bytes, lines, scanError)), c) == ScanResult([], false)
    ensures SearchInFile(None, c) == ScanResult([], false)
  {
    SniffOfContent(bytes);
  }

  /** rg.go does not sniff: a matching line of a file with a null byte in
      its first read is reported by rg.go, and by neither main.go nor
      main_v2.go. */
  lemma RgScansBinaryContent(bytes: seq<byte>, lines: seq<string>, scanError: bool, c: Config, i: nat, n: nat)
    requires i < |bytes| && i < SniffLen && bytes[i] == 0
    requires 1 <= n <= |lines|
    requires MatchesPattern(lines[n - 1], c.pattern, c.fixedStrings, c.ignoreCase)
    ensures SearchInFile(Some(FileData(bytes, lines, scanError)), c).hits == []
    ensures Hit(n, lines[n - 1]) in RgSearchInFile(Some(FileData(bytes, lines, scanError)), c).hits
  {
    SniffOfContent(bytes);
    ScanLinesExact(lines, c, false, n);
  }
}

=== FILE: strings.dfy ===
/**
 The parts of Go's `strings` and `fmt` packages the search tool relies on,
 over `string` = `seq<char>`.  One `char` stands for one byte: the model is
 ASCII-only, so lower-casing never changes a length.
 */
module Strings {

  /** `sub` occurs in `s` starting at position `i`. */
  predicate OccursAt(s: string, sub: string, i: int)
  {
    0 <= i && i + |sub| <= |s| && s[i..i + |sub|] == sub
  }

  /** Reference meaning of "`sub` is a contiguous substring of `s`". */
  ghost predicate IsSubstring(sub: string, s: string)
  {
    exists i :: OccursAt(s, sub, i)
  }

  lemma OccursShift(s: string, sub: string, i: int)
    requires |s| > 0 && i >= 0
    ensures OccursAt(s, sub, i + 1) <==> OccursAt(s[1..], sub, i)
  {
    if i + |sub| <= |s| - 1 {
      assert s[1..][i..i + |sub|] == s[i + 1..i + 1 + |sub|];
    }
  }

  /** strings.Index: the first position at which `sub` occurs in `s`, or -1.
      Only the bounds are stated here; IndexSpec says what the position is,
      so that callers pay for that only where they need it. */
  function Index(s: string, sub: string): (r: int)
    ensures -1 <= r <= |s|
    ensures r >= 0 ==> r + |sub| <= |s|
  {
    IndexFrom(s, sub, 0)
  }

  /** The first occurrence of `sub` in `s` at or after position `i`, or -1. */
  function IndexFrom(s: string, sub: string, i: nat): (r: int)
    ensures r == -1 || (i <= r && r + |sub| <= |s|)
    decreases |s| - i
  {
    if i + |sub| > |s| then -1
    else if MatchFrom(s, sub, i, 0) then i
    else IndexFrom(s, sub, i + 1)
  }

  /** Character-by-character comparison of `sub[k..]` with `s` from `i + k`,
      the way a search compares a candidate position. */
  predicate MatchFrom(s: string, sub: string, i: nat, k: nat)
    requires i + |sub| <= |s| && k <= |sub|
    decreases |sub| - k
  {
    k == |sub| || (s[i + k] == sub[k] && MatchFrom(s, sub, i, k + 1))
  }

  lemma {:induction false} MatchFromSpec(s: string, sub: string, i: nat, k: nat)
    requires i + |sub| <= |s| && k <= |sub|
    ensures MatchFrom(s, sub, i, k) <==> forall j :: k <= j < |sub| ==> s[i + j] == sub[j]
    decreases |sub| - k
  {
    if k < |sub| {
      MatchFromSpec(s, sub, i, k + 1);
    }
  }

  lemma MatchIsOccurrence(s: string, sub: string, i: nat)
    requires i + |sub| <= |s|
    ensures MatchFrom(s, sub, i, 0) <==> OccursAt(s, sub, i)
  {
    MatchFromSpec(s, sub, i, 0);
    if MatchFrom(s, sub, i, 0) {
      assert s[i..i + |sub|] == sub;
    } else {
      var j :| 0 <= j < |sub| && s[i + j] != sub[j];
      assert s[i..i + |sub|][j] != sub[j];
    }
  }

  lemma {:induction false} IndexFromSpec(s: string, sub: string, i: nat)
    ensures var r := IndexFrom(s, sub, i);
      && (r >= 0 ==> OccursAt(s, sub, r))
      && (r == -1 ==> forall j :: i <= j ==> !OccursAt(s, sub, j))
      && (forall j :: i <= j < r ==> !OccursAt(s, sub, j))
    decreases |s| - i
  {
    if i + |sub| <= |s| {
      MatchIsOccurrence(s, sub, i);
      if !OccursAt(s, sub, i) {
        IndexFromSpec(s, sub, i + 1);
      }
    }
  }

  /** Index finds an occurrence, the first one, and reports -1 only when
      there is none. */
  lemma IndexSpec(s: string, sub: string)
    ensures var r := Index(s, sub);
      && (r >= 0 ==> OccursAt(s, sub, r))
      && (r == -1 ==> forall i :: !OccursAt(s, sub, i))
      && (forall i :: 0 <= i < r ==> !OccursAt(s, sub, i))
  {
    IndexFromSpec(s, sub, 0);
  }

  lemma {:induction false} IndexFromShift(s: string, sub: string, i: nat, j: nat)
    requires i <= |s|
    ensures IndexFrom(s[i..], sub, j)
      == var r := IndexFrom(s, sub, i + j); if r == -1 then -1 else r - i
    decreases |s| - i - j
  {
    var t := s[i..];
    if j + |sub| <= |t| {
      assert t[j..j + |sub|] == s[i + j..i + j + |sub|];
      MatchIsOccurrence(t, sub, j);
      MatchIsOccurrence(s, sub, i + j);
      if !OccursAt(t, sub, j) {
        IndexFromShift(s, sub, i, j + 1);
      }
    }
  }

  /** Searching from position `i` is strings.Index of the suffix from `i`,
      shifted back by `i`: how a loop that slices `s[i:]` finds its match. */
  lemma IndexOfSuffix(s: string, sub: string, i: nat)
    requires i <= |s|
    ensures IndexFrom(s, sub, i)
      == var k := Index(s[i..], sub); if k == -1 then -1 else i + k
  {
    IndexFromShift(s, sub, i, 0);
    var k := Index(s[i..], sub);
    assert k == IndexFrom(s[i..], sub, 0);
  }

  /** A suffix cut at two points is the two slices and the rest. */
  lemma SuffixSplit(s: string, lo: int, mid: int, hi: int)
    requires 0 <= lo <= mid <= hi <= |s|
    ensures s[lo..] == s[lo..mid] + s[mid..hi] + s[hi..]
  {
  }

  lemma SliceOfPrefix(s: string, m: int, lo: int, hi: int)
    requires 0 <= lo <= hi <= m <= |s|
    ensures s[..m][lo..hi] == s[lo..hi]
  {
  }

  /** strings.Contains, computed through Index. */
  predicate Contains(s: string, sub: string)
    ensures Contains(s, sub) <==> IsSubstring(sub, s)
  {
    IndexSpec(s, sub);
    Index(s, sub) >= 0
  }

  lemma SubstringOfSlice(s: string, sub: string, lo: int, hi: int, i: int)
    requires 0 <= lo <= hi <= |s|
    requires OccursAt(s[lo..hi], sub, i)
    ensures OccursAt(s, sub, lo + i)
  {
    var t := s[lo..hi];
    forall k | 0 <= k < |sub| ensures s[lo + i..lo + i + |sub|][k] == sub[k] {
      assert sub[k] == t[i..i + |sub|][k] == t[i + k];
    }
  }

  /** strings.HasPrefix */
  predicate HasPrefix(s: string, prefix: string)
  {
    prefix <= s
  }

  /** strings.HasSuffix */
  predicate HasSuffix(s: string, suffix: string)
  {
    |suffix| <= |s| && s[|s| - |suffix|..] == suffix
  }

  /** strings.TrimPrefix: drops one copy of `prefix` if `s` starts with it. */
  function TrimPrefix(s: string, prefix: string): (r: string)
    ensures HasPrefix(s, prefix) ==> prefix + r == s
    ensures !HasPrefix(s, prefix) ==> r == s
  {
    if HasPrefix(s, prefix) then s[|prefix|..] else s
  }

  /** strings.TrimSuffix: drops one copy of `suffix` if `s` ends with it. */
  function TrimSuffix(s: string, suffix: string): (r: string)
    ensures HasSuffix(s, suffix) ==> r + suffix == s
    ensures !HasSuffix(s, suffix) ==> r == s
  {
    if HasSuffix(s, suffix) then s[..|s| - |suffix|] else s
  }

  /** unicode.ToLower restricted to ASCII: only 'A'..'Z' change. */
  function LowerChar(c: char): char
  {
    if 'A' <= c <= 'Z' then (c as int + 32) as char else c
  }

  /** strings.ToLower, character by character. */
  function Lower(s: string): (r: string)
    ensures |r| == |s|
    ensures forall i :: 0 <= i < |s| ==> r[i] == LowerChar(s[i])
  {
    seq(|s|, i requires 0 <= i < |s| => LowerChar(s[i]))
  }

  lemma LowerSlice(s: string, lo: int, hi: int)
    requires 0 <= lo <= hi <= |s|
    ensures Lower(s[lo..hi]) == Lower(s)[lo..hi]
  {
  }

  lemma LowerAppend(a: string, b: string)
    ensures Lower(a + b) == Lower(a) + Lower(b)
  {
    assert forall i :: 0 <= i < |a + b| ==> Lower(a + b)[i] == (Lower(a) + Lower(b))[i];
  }

  lemma LowerIdempotent(s: string)
    ensures Lower(Lower(s)) == Lower(s)
  {
    assert forall k :: 0 <= k < |s| ==> Lower(Lower(s))[k] == Lower(s)[k];
  }

  /** The normalisation applied before comparing: lower-casing under ignore-case. */
  function Fold(s: string, ignoreCase: bool): (r: string)
    ensures |r| == |s|
  {
    if ignoreCase then Lower(s) else s
  }

  lemma FoldSlice(s: string, lo: int, hi: int, ignoreCase: bool)
    requires 0 <= lo <= hi <= |s|
    ensures Fold(s[lo..hi], ignoreCase) == Fold(s, ignoreCase)[lo..hi]
  {
    if ignoreCase {
      LowerSlice(s, lo, hi);
    }
  }

  lemma FoldSuffix(s: string, lo: int, ignoreCase: bool)
    requires 0 <= lo <= |s|
    ensures Fold(s[lo..], ignoreCase) == Fold(s, ignoreCase)[lo..]
  {
    FoldSlice(s, lo, |s|, ignoreCase);
    assert s[lo..|s|] == s[lo..];
    assert Fold(s, ignoreCase)[lo..|s|] == Fold(s, ignoreCase)[lo..];
  }

  /** The single bytes strings.TrimSpace trims: the six ASCII spaces.  A
      lone byte of 0x80 or more decodes as U+FFFD, which is no space. */
  predicate IsSpace(c: char)
  {
    c == ' ' || c == '\t' || c == '\n' || c == '\r' || c == '\U{0B}' || c == '\U{0C}'
  }

  /** The first position at or after `i` that holds no space, or |s|. */
  function LeadEnd(s: string, i: nat): (r: nat)
    requires i <= |s|
    ensures i <= r <= |s|
    ensures forall k :: i <= k < r ==> IsSpace(s[k])
    ensures r < |s| ==> !IsSpace(s[r])
    decreases |s| - i
  {
    if i < |s| && IsSpace(s[i]) then LeadEnd(s, i + 1) else i
  }

  /** Going down from `j`, the start of the run of spaces that ends at `j`,
      stopping at `lo`. */
  function TrailStart(s: string, lo: nat, j: nat): (r: nat)
    requires lo <= j <= |s|
    ensures lo <= r <= j
    ensures forall k :: r <= k < j ==> IsSpace(s[k])
    ensures r > lo ==> !IsSpace(s[r - 1])
    decreases j
  {
    if j > lo && IsSpace(s[j - 1]) then TrailStart(s, lo, j - 1) else j
  }

  /** `r` is the stretch of `s` from `lo` on, and everything of `s` around
      it is space. */
  predicate TrimmedAt(s: string, r: string, lo: int)
  {
    && 0 <= lo && lo + |r| <= |s| && r == s[lo..lo + |r|]
    && (forall k :: 0 <= k < lo ==> IsSpace(s[k]))
    && (forall k :: lo + |r| <= k < |s| ==> IsSpace(s[k]))
  }

  /** strings.TrimSpace: what is left of `s` once leading and trailing spaces
      are removed. */
  function TrimSpace(s: string): (r: string)
    ensures exists lo :: TrimmedAt(s, r, lo)
    ensures r != [] ==> !IsSpace(r[0]) && !IsSpace(r[|r| - 1])
    ensures (forall k :: 0 <= k < |s| ==> IsSpace(s[k])) <==> r == []
  {
    var lo := LeadEnd(s, 0);
    var hi := TrailStart(s, lo, |s|);
    var r := s[lo..hi];
    assert TrimmedAt(s, r, lo);
    assert r != [] ==> r[0] == s[lo] && r[|r| - 1] == s[hi - 1];
    r
  }

  /** strings.ReplaceAll.  With an empty `target` the model inserts `repl`
      before every byte and once at the end (Go: before every UTF-8 sequence
      and once at the end; the two agree on ASCII text). */
  function ReplaceAll(s: string, target: string, repl: string): string
    decreases |s|
  {
    if |target| == 0 then Interleave(s, repl)
    else
      var i := Index(s, target);
      if i < 0 then s else s[..i] + repl + ReplaceAll(s[i + |target|..], target, repl)
  }

  /** `repl` before each byte of `s` and after the last one. */
  function Interleave(s: string, repl: string): string
  {
    if s == [] then repl else repl + [s[0]] + Interleave(s[1..], repl)
  }

  /** strings.Count of a single-character separator. */
  function CountChar(s: string, c: char): nat
  {
    multiset(s)[c]
  }

  /** strings.Split with a one-character separator: the pieces between the
      separators, so there is always one more piece than separators. */
  function Split(s: string, sep: char): (parts: seq<string>)
    ensures |parts| == CountChar(s, sep) + 1
    ensures forall k :: 0 <= k < |parts| ==> sep !in parts[k]
    decreases |s|
  {
    var i := Index(s, [sep]);
    IndexOfChar(s, sep);
    if i < 0 then [s]
    else
      assert s == s[..i] + [sep] + s[i + 1..];
      assert multiset(s)[sep] == multiset(s[..i])[sep] + 1 + multiset(s[i + 1..])[sep] by {
        assert multiset(s) == multiset(s[..i]) + multiset([sep]) + multiset(s[i + 1..]);
      }
      [s[..i]] + Split(s[i + 1..], sep)
  }

  /** What Index says about a one-character separator. */
  lemma IndexOfChar(s: string, sep: char)
    ensures var i := Index(s, [sep]);
      && (i < 0 ==> sep !in s)
      && (i >= 0 ==> i < |s| && s[i] == sep && sep !in s[..i])
  {
    var i := Index(s, [sep]);
    IndexSpec(s, [sep]);
    forall k | 0 <= k < |s| && (i < 0 || k < i) ensures s[k] != sep {
      assert !OccursAt(s, [sep], k);
      assert s[k..k + 1] == [s[k]];
    }
    if i >= 0 {
      assert OccursAt(s, [sep], i);
    }
  }

  /** strings.Join */
  function Join(parts: seq<string>, sep: string): string
  {
    if |parts| == 0 then ""
    else if |parts| == 1 then parts[0]
    else parts[0] + sep + Join(parts[1..], sep)
  }

  lemma JoinCons(head: string, tail: seq<string>, sep: string)
    requires |tail| >= 1
    ensures Join([head] + tail, sep) == head + sep + Join(tail, sep)
  {
    assert ([head] + tail)[1..] == tail;
  }

  lemma SplitStep(s: string, sep: char, i: int)
    requires i == Index(s, [sep]) && i >= 0
    ensures i < |s| && s[i] == sep
    ensures Split(s, sep) == [s[..i]] + Split(s[i + 1..], sep)
  {
    IndexOfChar(s, sep);
  }

  /** Split and Join with the same separator are inverse. */
  lemma {:induction false} SplitJoin(s: string, sep: char)
    ensures Join(Split(s, sep), [sep]) == s
    decreases |s|
  {
    var i := Index(s, [sep]);
    if i >= 0 {
      SplitStep(s, sep, i);
      var rest := s[i + 1..];
      SplitJoin(rest, sep);
      JoinCons(s[..i], Split(rest, sep), [sep]);
      assert s == s[..i] + [sep] + rest;
    }
  }

  predicate IsDigit(c: char)
  {
    '0' <= c <= '9'
  }

  function DigitChar(d: nat): char
    requires d < 10
  {
    ('0' as int + d) as char
  }

  /** fmt.Sprintf("%d", n) for a non-negative n. */
  function Decimal(n: nat): (r: string)
    ensures |r| >= 1
    ensures forall k :: 0 <= k < |r| ==> IsDigit(r[k])
    ensures r[0] == '0' ==> n == 0 && r == "0"
  {
    if n < 10 then [DigitChar(n)] else Decimal(n / 10) + [DigitChar(n % 10)]
  }

  /** Reads a run of decimal digits back as a number: the inverse of Decimal. */
  function DecimalValue(s: string): nat
    requires forall k :: 0 <= k < |s| ==> IsDigit(s[k])
  {
    if s == [] then 0
    else
      assert IsDigit(s[|s| - 1]);
      DecimalValue(s[..|s| - 1]) * 10 + (s[|s| - 1] as int - '0' as int)
  }

  lemma {:induction false} DecimalRoundTrip(n: nat)
    ensures DecimalValue(Decimal(n)) == n
  {
    if n >= 10 {
      DecimalRoundTrip(n / 10);
      var d := Decimal(n);
      assert d[..|d| - 1] == Decimal(n / 10);
    }
  }
}

=== FILE: walk.dfy ===
/**
 The search: filepath.Walk over the tree under the search root, with the
 callback of each program deciding for every entry whether to prune a
 directory, skip a file or scan it.  The tree is an abstract datatype whose
 children come in the lexical order filepath.Walk visits them in.
 */
module Walk {
  import opened Strings
  import opened Paths
  import opened Options
  import opened Binary
  import opened Ignore
  import opened Matcher
  import opened Scan

  /** Which program's callback runs. */
  datatype Variant = MainGo | MainV2Go | RgGo

  /** A directory entry.  `Unreadable` is an entry whose Lstat failed; the
      callback is handed the error and returns nil, so it is passed over.
      A file carries what opening it gives (None: it could not be opened). */
  datatype Node =
    | Dir(name: string, children: seq<Node>)
    | File(name: string, data: Option<FileData>)
    | Unreadable(name: string)

  /** A reported line: the path printMatch is given and the hit. */
  datatype Found = Found(path: string, hit: Hit)

  /** What the walk reports, in order, and whether it ended on an error. */
  datatype WalkResult = WalkResult(found: seq<Found>, failed: bool)

  /** The callback's answer for a directory. */
  predicate PruneDir(v: Variant, c: Config, filter: Option<Filter>, path: string, rel: string)
  {
    match v
    case MainGo => !c.hidden && IsHidden(path)
    case MainV2Go =>
      ShouldIgnoreDirectory(path, c.searchPath) || (!c.hidden && IsHidden(path)) || ShouldIgnore(filter, rel)
    case RgGo => !c.hidden && IsHidden(path)
  }

  /** The callback's answer for a file: does it reach searchInFile? */
  predicate ScanFile(v: Variant, c: Config, filter: Option<Filter>, path: string, rel: string)
  {
    match v
    case MainGo => !(!c.hidden && IsHidden(path)) && !IsBinaryFileByExtension(path)
    case MainV2Go =>
      !(!c.hidden && IsHidden(path)) && !ShouldIgnore(filter, rel) && !IsBinaryFileByExtension(path)
    case RgGo => !(!c.hidden && IsHidden(path))
  }

  /** A file every variant could let through: visible unless hidden files
      are searched, and of a non-binary extension unless the variant is rg.go. */
  predicate Admitted(v: Variant, hidden: bool, path: string)
  {
    (hidden || !IsHidden(path)) && (v == RgGo || !IsBinaryFileByExtension(path))
  }

  /** A reported line whose path the variant admits and whose text matches. */
  predicate Reported(v: Variant, c: Config, f: Found)
  {
    Admitted(v, c.hidden, f.path) && MatchesPattern(f.hit.line, c.pattern, c.fixedStrings, c.ignoreCase)
  }

  /** The callback's searchInFile for each variant: only matching lines
      come back. */
  function SearchFile(v: Variant, c: Config, data: Option<FileData>): (s: ScanResult)
    ensures data.None? ==> s == ScanResult([], false)
    ensures s.failed ==> data.Some? && data.value.scanError
    ensures forall k :: 0 <= k < |s.hits| ==> MatchesPattern(s.hits[k].line, c.pattern, c.fixedStrings, c.ignoreCase)
  {
    match data
    case None => ScanResult([], false)
    case Some(d) =>
      ScanLinesSound(d.lines, c, v != RgGo);
      if v == RgGo then RgSearchInFile(data, c) else SearchInFile(data, c)
  }

  /** The hits of one file, tagged with its path. */
  function Tag(path: string, hits: seq<Hit>): (found: seq<Found>)
    ensures |found| == |hits|
    ensures forall k :: 0 <= k < |found| ==> found[k] == Found(path, hits[k])
  {
    seq(|hits|, k requires 0 <= k < |hits| => Found(path, hits[k]))
  }

  /** The WalkFunc a program hands filepath.Walk: its answers for a
      directory (prune it?) and for a file (scan it?), each given the
      entry's path and relative path, and its searchInFile for a file it
      scans. */
  datatype WalkFunc = WalkFunc(
    prune: (string, string) -> bool,
    scan: (string, string) -> bool,
    search: Option<FileData> -> ScanResult)

  /** The ignore filter main_v2.go loads before walking; the others load none. */
  function FilterOf(v: Variant, c: Config, ignoreFile: Option<IgnoreFile>): Option<Filter>
  {
    if v == MainV2Go then ActiveFilter(c.respectGitignore, c.searchPath, ignoreFile) else None
  }

  /** The WalkFunc of each program. */
  function Callback(v: Variant, c: Config, filter: Option<Filter>): WalkFunc
  {
    WalkFunc(
      (path, rel) => PruneDir(v, c, filter, path, rel),
      (path, rel) => ScanFile(v, c, filter, path, rel),
      data => SearchFile(v, c, data))
  }

  /** filepath.Walk from the entry `node` at `path`, relative path `rel`. */
  function WalkNode(wf: WalkFunc, node: Node, path: string, rel: string): WalkResult
    decreases node, 1
  {
    match node
    case Unreadable(_) => WalkResult([], false)
    case File(_, data) =>
      if !wf.scan(path, rel) then WalkResult([], false)
      else
        var s := wf.search(data);
        WalkResult(Tag(path, s.hits), s.failed)
    case Dir(_, children) =>
      if wf.prune(path, rel) then WalkResult([], false)
      else WalkChildren(wf, node, 0, path, rel)
  }

  /** The children of the directory `parent` at `dir` from the one with
      index `i` on, in order.  An error
      from one child ends the walk: what was reported before it stands,
      and nothing after it is visited. */
  function WalkChildren(wf: WalkFunc, parent: Node, i: nat, dir: string, rel: string): WalkResult
    requires parent.Dir? && i <= |parent.children|
    decreases parent, 0, |parent.children| - i
  {
    if i == |parent.children| then WalkResult([], false)
    else
      var child := parent.children[i];
      var first := WalkNode(wf, child, JoinPath(dir, child.name), ChildRel(rel, child.name));
      if first.failed then first
      else
        var rest := WalkChildren(wf, parent, i + 1, dir, rel);
        WalkResult(first.found + rest.found, rest.failed)
  }

  /** search: load the ignore filter (main_v2.go only), then walk from the
      root, whose relative path is ".". */
  function Search(v: Variant, c: Config, root: Node, ignoreFile: Option<IgnoreFile>): WalkResult
  {
    WalkNode(Callback(v, c, FilterOf(v, c, ignoreFile)), root, c.searchPath, ".")
  }

  /** main_v2.go decides like main.go plus its directory denylist and the
      ignore filter, and consults the denylist for directories only; rg.go
      decides like main.go without the extension test. */
  lemma DecisionsCompared(c: Config, filter: Option<Filter>, path: string, rel: string)
    ensures PruneDir(MainV2Go, c, filter, path, rel)
      <==> PruneDir(MainGo, c, filter, path, rel) || Base(path) in IgnoredDirs || ShouldIgnore(filter, rel)
    ensures ScanFile(MainV2Go, c, filter, path, rel)
      <==> ScanFile(MainGo, c, filter, path, rel) && !ShouldIgnore(filter, rel)
    ensures PruneDir(RgGo, c, filter, path, rel) <==> PruneDir(MainGo, c, filter, path, rel)
    ensures ScanFile(MainGo, c, filter, path, rel)
      <==> ScanFile(RgGo, c, filter, path, rel) && !IsBinaryFileByExtension(path)
  {
  }

  /** One step of the walk of a directory: a pruned directory reports
      nothing, an entered one reports what its children do. */
  lemma WalkDir(wf: WalkFunc, node: Node, path: string, rel: string)
    requires node.Dir?
    ensures wf.prune(path, rel) ==> WalkNode(wf, node, path, rel) == WalkResult([], false)
    ensures !wf.prune(path, rel) ==> WalkNode(wf, node, path, rel) == WalkChildren(wf, node, 0, path, rel)
  {
  }

  /** One step of the walk of a file: a skipped file reports nothing, a
      scanned one what searchInFile returns. */
  lemma WalkFile(wf: WalkFunc, node: Node, path: string, rel: string)
    requires node.File?
    ensures !wf.scan(path, rel) ==> WalkNode(wf, node, path, rel) == WalkResult([], false)
    ensures wf.scan(path, rel) ==>
      var s := wf.search(node.data);
      WalkNode(wf, node, path, rel) == WalkResult(Tag(path, s.hits), s.failed)
  {
  }

  /** A pruned directory reports nothing. */
  lemma PrunedDirFindsNothing(wf: WalkFunc, node: Node, path: string, rel: string)
    requires node.Dir? && wf.prune(path, rel)
    ensures WalkNode(wf, node, path, rel) == WalkResult([], false)
  {
  }

  /** A scanned file whose search ends without an error reports its hits. */
  lemma ScannedFileReports(wf: WalkFunc, node: Node, path: string, rel: string, hits: seq<Hit>)
    requires node.File? && wf.scan(path, rel)
    requires wf.search(node.data) == ScanResult(hits, false)
    ensures WalkNode(wf, node, path, rel) == WalkResult(Tag(path, hits), false)
  {
  }

  /** A directory that is not pruned reports what its children do. */
  lemma EnteredDirWalksChildren(wf: WalkFunc, node: Node, path: string, rel: string)
    requires node.Dir? && !wf.prune(path, rel)
    ensures WalkNode(wf, node, path, rel) == WalkChildren(wf, node, 0, path, rel)
  {
  }

  /** A skipped file reports nothing. */
  lemma SkippedFileFindsNothing(wf: WalkFunc, node: Node, path: string, rel: string)
    requires node.File? && !wf.scan(path, rel)
    ensures WalkNode(wf, node, path, rel) == WalkResult([], false)
  {
  }

  /** One step of the walk of the children. */
  lemma WalkChild(wf: WalkFunc, parent: Node, i: nat, dir: string, rel: string)
    requires parent.Dir? && i < |parent.children|
    ensures var first := ChildWalk(wf, parent, i, dir, rel);
      var rest := WalkChildren(wf, parent, i + 1, dir, rel);
      WalkChildren(wf, parent, i, dir, rel)
        == if first.failed then first else WalkResult(first.found + rest.found, rest.failed)
  {
  }

  /** A search rooted at "." (or "./") without --hidden finds nothing and
      reports no error: the root's base name "." counts as hidden, so every
      program prunes the root. */
  lemma DotRootFindsNothing(v: Variant, c: Config, root: Node, ignoreFile: Option<IgnoreFile>)
    requires c.searchPath == "." || c.searchPath == "./"
    requires !c.hidden && root.Dir?
    ensures Search(v, c, root, ignoreFile) == WalkResult([], false)
  {
    var wf := Callback(v, c, FilterOf(v, c, ignoreFile));
    assert wf.prune(c.searchPath, ".") by {
      DotIsHidden(c.searchPath);
      assert PruneDir(v, c, FilterOf(v, c, ignoreFile), c.searchPath, ".");
    }
    PrunedDirFindsNothing(wf, root, c.searchPath, ".");
  }

  /** The base name of "." and of "./" is ".", a hidden name. */
  lemma DotIsHidden(path: string)
    requires path == "." || path == "./"
    ensures IsHidden(path)
  {
    if path == "./" {
      assert path[..|path| - 1] == ".";
      assert TrimTrailingSlashes(path) == ".";
      LastElementOfName(".");
    }
    assert Base(path) == ".";
  }

  /** main_v2.go prunes a root directory named like a build output
      ("node_modules", "build", ...), where main.go walks into it. */
  lemma DenylistedRootFindsNothing(c: Config, root: Node, ignoreFile: Option<IgnoreFile>)
    requires Base(c.searchPath) in IgnoredDirs && root.Dir?
    ensures Search(MainV2Go, c, root, ignoreFile) == WalkResult([], false)
    ensures c.hidden || !IsHidden(c.searchPath) ==>
      Search(MainGo, c, root, ignoreFile) == WalkChildren(Callback(MainGo, c, None), root, 0, c.searchPath, ".")
  {
    var wf := Callback(MainV2Go, c, FilterOf(MainV2Go, c, ignoreFile));
    assert wf.prune(c.searchPath, ".") by {
      assert PruneDir(MainV2Go, c, FilterOf(MainV2Go, c, ignoreFile), c.searchPath, ".");
    }
    PrunedDirFindsNothing(wf, root, c.searchPath, ".");
    if c.hidden || !IsHidden(c.searchPath) {
      VisibleRootEntered(c, root, ignoreFile);
    }
  }

  /** main.go walks into a root directory unless it is hidden and --hidden
      is not given. */
  lemma VisibleRootEntered(c: Config, root: Node, ignoreFile: Option<IgnoreFile>)
    requires root.Dir? && (c.hidden || !IsHidden(c.searchPath))
    ensures Search(MainGo, c, root, ignoreFile) == WalkChildren(Callback(MainGo, c, None), root, 0, c.searchPath, ".")
  {
    var wf := Callback(MainGo, c, None);
    assert !wf.prune(c.searchPath, ".");
    EnteredDirWalksChildren(wf, root, c.searchPath, ".");
  }

  /** A rule "/" in the ignore file matches the root itself, whose relative
      path is ".", so main_v2.go reports nothing at all. */
  lemma SlashRuleHidesEverything(c: Config, root: Node, lines: seq<string>, i: nat)
    requires c.respectGitignore && i < |lines| && TrimSpace(lines[i]) == "/"
    ensures Search(MainV2Go, c, root, Some(IgnoreFile(lines, false))) == WalkResult([], false)
  {
    var wf := Callback(MainV2Go, c, FilterOf(MainV2Go, c, Some(IgnoreFile(lines, false))));
    SlashRuleIgnoresRoot(c, lines, i);
    match root
    case Dir(_, _) =>
      PrunedDirFindsNothing(wf, root, c.searchPath, ".");
    case File(_, _) =>
      SkippedFileFindsNothing(wf, root, c.searchPath, ".");
    case Unreadable(_) =>
  }

  lemma SlashRuleIgnoresRoot(c: Config, lines: seq<string>, i: nat)
    requires c.respectGitignore && i < |lines| && TrimSpace(lines[i]) == "/"
    ensures ShouldIgnore(ActiveFilter(c.respectGitignore, c.searchPath, Some(IgnoreFile(lines, false))), ".")
  {
    assert Kept("/") by {
      assert !HasPrefix("/", "#") by { assert "#"[0] != "/"[0]; }
    }
    ParseIgnoreLinesMembers(lines, "/");
    var patterns := ParseIgnoreLines(lines);
    var k :| 0 <= k < |patterns| && patterns[k] == "/";
    EmptyRuleMatchesAll(".");
  }

  /** A visible file whose extension main.go and main_v2.go reject unread
      is scanned by rg.go: searched from that file, a matching line is
      reported by rg.go alone. */
  lemma RgScansBinaryExtension(c: Config, bytes: seq<byte>, line: string, ignoreFile: Option<IgnoreFile>)
    requires IsBinaryFileByExtension(c.searchPath) && !IsHidden(c.searchPath)
    requires MatchesPattern(line, c.pattern, c.fixedStrings, c.ignoreCase)
    ensures var root := File(Base(c.searchPath), Some(FileData(bytes, [line], false)));
      && Search(RgGo, c, root, ignoreFile) == WalkResult([Found(c.searchPath, Hit(1, line))], false)
      && Search(MainGo, c, root, ignoreFile) == WalkResult([], false)
      && Search(MainV2Go, c, root, ignoreFile) == WalkResult([], false)
  {
    var root := File(Base(c.searchPath), Some(FileData(bytes, [line], false)));
    RgReportsFileRoot(c, root, line, ignoreFile);
    BinaryFileRootSkipped(MainGo, c, root, ignoreFile);
    BinaryFileRootSkipped(MainV2Go, c, root, ignoreFile);
  }

  /** rg.go on a visible one-line file root whose line matches. */
  lemma RgReportsFileRoot(c: Config, root: Node, line: string, ignoreFile: Option<IgnoreFile>)
    requires !IsHidden(c.searchPath) && root.File? && root.data.Some?
    requires root.data.value.lines == [line] && !root.data.value.scanError
    requires MatchesPattern(line, c.pattern, c.fixedStrings, c.ignoreCase)
    ensures Search(RgGo, c, root, ignoreFile) == WalkResult([Found(c.searchPath, Hit(1, line))], false)
  {
    var wf := Callback(RgGo, c, None);
    assert wf.scan(c.searchPath, ".") by {
      assert ScanFile(RgGo, c, None, c.searchPath, ".");
    }
    assert wf.search(root.data) == ScanResult([Hit(1, line)], false) by {
      RgSearchOneLine(c, root.data.value, line);
    }
    ScannedFileReports(wf, root, c.searchPath, ".", [Hit(1, line)]);
    TagOne(c.searchPath, Hit(1, line));
  }

  /** rg.go's searchInFile on a one-line file whose line matches. */
  lemma RgSearchOneLine(c: Config, data: FileData, line: string)
    requires data.lines == [line] && !data.scanError
    requires MatchesPattern(line, c.pattern, c.fixedStrings, c.ignoreCase)
    ensures SearchFile(RgGo, c, Some(data)) == ScanResult([Hit(1, line)], false)
  {
    OneLineScan(line, c, false);
  }

  lemma TagOne(path: string, h: Hit)
    ensures Tag(path, [h]) == [Found(path, h)]
  {
  }

  /** main.go and main_v2.go skip a file root of a binary extension. */
  lemma BinaryFileRootSkipped(v: Variant, c: Config, root: Node, ignoreFile: Option<IgnoreFile>)
    requires v != RgGo && IsBinaryFileByExtension(c.searchPath) && root.File?
    ensures Search(v, c, root, ignoreFile) == WalkResult([], false)
  {
    SkippedFileFindsNothing(Callback(v, c, FilterOf(v, c, ignoreFile)), root, c.searchPath, ".");
  }

  /** A tree none of whose readable files stop on a scanner error. */
  predicate ReadsCleanly(node: Node)
  {
    match node
    case Dir(_, children) => forall k :: 0 <= k < |children| ==> ReadsCleanly(children[k])
    case File(_, data) => data.None? || !data.value.scanError
    case Unreadable(_) => true
  }

  /** The WalkFunc's search ends on an error only on a scanner error. */
  ghost predicate FailsOnScanErrorOnly(wf: WalkFunc)
  {
    forall data :: wf.search(data).failed ==> data.Some? && data.value.scanError
  }

  /** searchInFile of every program ends on an error only on a scanner
      error. */
  lemma CallbackFailsOnScanErrorOnly(v: Variant, c: Config, filter: Option<Filter>)
    ensures FailsOnScanErrorOnly(Callback(v, c, filter))
  {
    forall data | Callback(v, c, filter).search(data).failed
      ensures data.Some? && data.value.scanError
    {
      assert Callback(v, c, filter).search(data) == SearchFile(v, c, data);
    }
  }

  /** Unreadable entries and unopenable files are passed over: a walk over a
      tree that reads cleanly never ends on an error. */
  lemma {:induction false} CleanTreeNeverFails(wf: WalkFunc, node: Node, path: string, rel: string)
    requires FailsOnScanErrorOnly(wf) && ReadsCleanly(node)
    ensures !WalkNode(wf, node, path, rel).failed
    decreases node, 1
  {
    match node
    case Dir(_, _) =>
      WalkDir(wf, node, path, rel);
      if !wf.prune(path, rel) {
        CleanChildrenNeverFail(wf, node, 0, path, rel);
      }
    case File(_, data) =>
      WalkFile(wf, node, path, rel);
    case Unreadable(_) =>
  }

  lemma {:induction false} CleanChildrenNeverFail(wf: WalkFunc, parent: Node, i: nat, dir: string, rel: string)
    requires FailsOnScanErrorOnly(wf)
    requires parent.Dir? && i <= |parent.children| && ReadsCleanly(parent)
    ensures !WalkChildren(wf, parent, i, dir, rel).failed
    decreases parent, 0, |parent.children| - i
  {
    if i < |parent.children| {
      var child := parent.children[i];
      CleanTreeNeverFails(wf, child, JoinPath(dir, child.name), ChildRel(rel, child.name));
      CleanChildrenNeverFail(wf, parent, i + 1, dir, rel);
      WalkChild(wf, parent, i, dir, rel);
    }
  }

  /** The walk of the child with index `i`. */
  function ChildWalk(wf: WalkFunc, parent: Node, i: nat, dir: string, rel: string): WalkResult
    requires parent.Dir? && i < |parent.children|
  {
    var child := parent.children[i];
    WalkNode(wf, child, JoinPath(dir, child.name), ChildRel(rel, child.name))
  }

  /** The reports of the children with index `i` up to `j`, in order. */
  function ChildrenFound(wf: WalkFunc, parent: Node, i: nat, j: nat, dir: string, rel: string): seq<Found>
    requires parent.Dir? && i <= j <= |parent.children|
    decreases j - i
  {
    if i == j then [] else ChildWalk(wf, parent, i, dir, rel).found + ChildrenFound(wf, parent, i + 1, j, dir, rel)
  }

  /** The walk of the children from index `i` on, when child `j` ends on an
      error and the children between read cleanly: the walk ends on that
      error, what the children before `j` reported stands, in order, and
      what child `j` reported comes last, nothing after it being visited. */
  lemma FailureEndsWalk(wf: WalkFunc, parent: Node, i: nat, j: nat, dir: string, rel: string)
    requires FailsOnScanErrorOnly(wf)
    requires parent.Dir? && i <= j < |parent.children|
    requires forall k :: i <= k < j ==> ReadsCleanly(parent.children[k])
    requires ChildWalk(wf, parent, j, dir, rel).failed
    ensures WalkChildren(wf, parent, i, dir, rel).failed
    ensures WalkChildren(wf, parent, i, dir, rel).found
      == ChildrenFound(wf, parent, i, j, dir, rel) + ChildWalk(wf, parent, j, dir, rel).found
  {
    forall k | i <= k < j ensures !ChildWalk(wf, parent, k, dir, rel).failed {
      CleanChildNeverFails(wf, parent, k, dir, rel);
    }
    FailureHere(wf, parent, j, dir, rel);
    FailurePropagates(wf, parent, i, j, dir, rel);
  }

  /** An error that ends the walk of the children from `j` on ends the walk
      from any earlier `i` too, after the reports of the children between,
      when none of those ends on an error. */
  lemma {:induction false} FailurePropagates(wf: WalkFunc, parent: Node, i: nat, j: nat, dir: string, rel: string)
    requires parent.Dir? && i <= j < |parent.children|
    requires forall k :: i <= k < j ==> !ChildWalk(wf, parent, k, dir, rel).failed
    requires WalkChildren(wf, parent, j, dir, rel).failed
    ensures WalkChildren(wf, parent, i, dir, rel).failed
    ensures WalkChildren(wf, parent, i, dir, rel).found
      == ChildrenFound(wf, parent, i, j, dir, rel) + WalkChildren(wf, parent, j, dir, rel).found
    decreases j - i
  {
    if i < j {
      FailurePropagates(wf, parent, i + 1, j, dir, rel);
      FailurePassesBack(wf, parent, i, dir, rel);
      Regroup(WalkChildren(wf, parent, i, dir, rel).found, ChildWalk(wf, parent, i, dir, rel).found,
        WalkChildren(wf, parent, i + 1, dir, rel).found, ChildrenFound(wf, parent, i + 1, j, dir, rel),
        WalkChildren(wf, parent, j, dir, rel).found, ChildrenFound(wf, parent, i, j, dir, rel));
    }
  }

  lemma Regroup(x: seq<Found>, a: seq<Found>, y: seq<Found>, b: seq<Found>, w: seq<Found>, ab: seq<Found>)
    requires x == a + y && y == b + w && ab == a + b
    ensures x == ab + w
  {
  }

  /** A child that does not end on an error passes on the failure of the
      walk of its later siblings, its reports coming first. */
  lemma FailurePassesBack(wf: WalkFunc, parent: Node, i: nat, dir: string, rel: string)
    requires parent.Dir? && i + 1 < |parent.children|
    requires !ChildWalk(wf, parent, i, dir, rel).failed
    requires WalkChildren(wf, parent, i + 1, dir, rel).failed
    ensures WalkChildren(wf, parent, i, dir, rel).failed
    ensures WalkChildren(wf, parent, i, dir, rel).found
      == ChildWalk(wf, parent, i, dir, rel).found + WalkChildren(wf, parent, i + 1, dir, rel).found
  {
    WalkChild(wf, parent, i, dir, rel);
  }

  /** A child that ends on an error ends the walk of the children there,
      with its own reports. */
  lemma FailureHere(wf: WalkFunc, parent: Node, i: nat, dir: string, rel: string)
    requires parent.Dir? && i < |parent.children|
    requires ChildWalk(wf, parent, i, dir, rel).failed
    ensures WalkChildren(wf, parent, i, dir, rel) == ChildWalk(wf, parent, i, dir, rel)
  {
    WalkChild(wf, parent, i, dir, rel);
  }

  /** CleanTreeNeverFails for the child with index `i`. */
  lemma CleanChildNeverFails(wf: WalkFunc, parent: Node, i: nat, dir: string, rel: string)
    requires FailsOnScanErrorOnly(wf)
    requires parent.Dir? && i < |parent.children| && ReadsCleanly(parent.children[i])
    ensures !ChildWalk(wf, parent, i, dir, rel).failed
  {
    var child := parent.children[i];
    CleanTreeNeverFails(wf, child, JoinPath(dir, child.name), ChildRel(rel, child.name));
  }

  /** What the walk would report were no search to end it on an error:
      the hits of every scanned file under the entered directories, each
      file's own search hits under its own path, in the order
      filepath.Walk visits the files. */
  function Hits(wf: WalkFunc, node: Node, path: string, rel: string): seq<Found>
    decreases node, 1
  {
    match node
    case Unreadable(_) => []
    case File(_, data) => if wf.scan(path, rel) then Tag(path, wf.search(data).hits) else []
    case Dir(_, _) => if wf.prune(path, rel) then [] else ChildHits(wf, node, 0, path, rel)
  }

  /** Hits of the children of `parent` from index `i` on. */
  function ChildHits(wf: WalkFunc, parent: Node, i: nat, dir: string, rel: string): seq<Found>
    requires parent.Dir? && i <= |parent.children|
    decreases parent, 0, |parent.children| - i
  {
    if i == |parent.children| then []
    else
      var child := parent.children[i];
      Hits(wf, child, JoinPath(dir, child.name), ChildRel(rel, child.name)) + ChildHits(wf, parent, i + 1, dir, rel)
  }

  /** The walk reports the hits in order, up to the first error: what it
      reports is a prefix of Hits, and all of Hits when no search ends on
      an error. */
  lemma {:induction false} WalkSound(wf: WalkFunc, node: Node, path: string, rel: string)
    ensures var r := WalkNode(wf, node, path, rel);
      r.found <= Hits(wf, node, path, rel) && (!r.failed ==> r.found == Hits(wf, node, path, rel))
    decreases node, 1
  {
    match node
    case Dir(_, _) =>
      WalkDir(wf, node, path, rel);
      if !wf.prune(path, rel) {
        ChildrenWalkSound(wf, node, 0, path, rel);
      }
    case File(_, _) =>
      WalkFile(wf, node, path, rel);
    case Unreadable(_) =>
  }

  lemma {:induction false} ChildrenWalkSound(wf: WalkFunc, parent: Node, i: nat, dir: string, rel: string)
    requires parent.Dir? && i <= |parent.children|
    ensures var r := WalkChildren(wf, parent, i, dir, rel);
      r.found <= ChildHits(wf, parent, i, dir, rel) && (!r.failed ==> r.found == ChildHits(wf, parent, i, dir, rel))
    decreases parent, 0, |parent.children| - i
  {
    if i < |parent.children| {
      var child := parent.children[i];
      var path := JoinPath(dir, child.name);
      var crel := ChildRel(rel, child.name);
      WalkSound(wf, child, path, crel);
      ChildrenWalkSound(wf, parent, i + 1, dir, rel);
      WalkChild(wf, parent, i, dir, rel);
      var first := ChildWalk(wf, parent, i, dir, rel);
      assert first == WalkNode(wf, child, path, crel);
      var h := Hits(wf, child, path, crel);
      var hs := ChildHits(wf, parent, i + 1, dir, rel);
      assert ChildHits(wf, parent, i, dir, rel) == h + hs;
      if first.failed {
        PrefixOfAppend(first.found, h, hs);
      } else {
        PrefixAfter(h, WalkChildren(wf, parent, i + 1, dir, rel).found, hs);
      }
    }
  }

  lemma PrefixOfAppend(a: seq<Found>, b: seq<Found>, c: seq<Found>)
    requires a <= b
    ensures a <= b + c
  {
    assert (b + c)[..|a|] == b[..|a|];
  }

  lemma PrefixAfter(h: seq<Found>, a: seq<Found>, b: seq<Found>)
    requires a <= b
    ensures h + a <= h + b
  {
    assert (h + b)[..|h + a|] == h + b[..|a|];
  }

  /** A line of Hits comes from a path the WalkFunc scans, and is a hit the
      WalkFunc's search gives for some file content.  Which content and which
      relative path is stated by Hits itself. */
  ghost predicate FromScan(wf: WalkFunc, f: Found)
  {
    (exists rel :: wf.scan(f.path, rel)) && (exists data :: f.hit in wf.search(data).hits)
  }

  /** Every line of `found` comes from a scan. */
  ghost predicate AllFromScan(wf: WalkFunc, found: seq<Found>)
  {
    forall k :: 0 <= k < |found| ==> FromScan(wf, found[k])
  }

  lemma AllFromScanAppend(wf: WalkFunc, a: seq<Found>, b: seq<Found>)
    requires AllFromScan(wf, a) && AllFromScan(wf, b)
    ensures AllFromScan(wf, a + b)
  {
    forall k | 0 <= k < |a + b| ensures FromScan(wf, (a + b)[k]) {
      if k < |a| {
        assert (a + b)[k] == a[k];
      } else {
        assert (a + b)[k] == b[k - |a|];
      }
    }
  }

  /** Every line of Hits comes from a scan. */
  lemma {:induction false} HitsFromScan(wf: WalkFunc, node: Node, path: string, rel: string)
    ensures AllFromScan(wf, Hits(wf, node, path, rel))
    decreases node, 1
  {
    match node
    case Dir(_, _) =>
      if !wf.prune(path, rel) {
        ChildHitsFromScan(wf, node, 0, path, rel);
      }
    case File(_, data) =>
      if wf.scan(path, rel) {
        var s := wf.search(data);
        var h := Tag(path, s.hits);
        forall k | 0 <= k < |h| ensures FromScan(wf, h[k]) {
          assert h[k] == Found(path, s.hits[k]);
          assert s.hits[k] in wf.search(data).hits;
        }
      }
    case Unreadable(_) =>
  }

  lemma {:induction false} ChildHitsFromScan(wf: WalkFunc, parent: Node, i: nat, dir: string, rel: string)
    requires parent.Dir? && i <= |parent.children|
    ensures AllFromScan(wf, ChildHits(wf, parent, i, dir, rel))
    decreases parent, 0, |parent.children| - i
  {
    if i < |parent.children| {
      var child := parent.children[i];
      HitsFromScan(wf, child, JoinPath(dir, child.name), ChildRel(rel, child.name));
      ChildHitsFromScan(wf, parent, i + 1, dir, rel);
      AllFromScanAppend(wf, Hits(wf, child, JoinPath(dir, child.name), ChildRel(rel, child.name)),
        ChildHits(wf, parent, i + 1, dir, rel));
    }
  }

  /** A line every program's WalkFunc scanned is one it reports: the hidden
      test passed unless --hidden is given, for main.go and main_v2.go the
      extension test passed too, and the text matches. */
  lemma CallbackAdmits(v: Variant, c: Config, filter: Option<Filter>, f: Found)
    requires FromScan(Callback(v, c, filter), f)
    ensures Reported(v, c, f)
  {
    var wf := Callback(v, c, filter);
    var rel :| wf.scan(f.path, rel);
    assert ScanFile(v, c, filter, f.path, rel);
    var data :| f.hit in wf.search(data).hits;
    var hits := SearchFile(v, c, data).hits;
    var k :| 0 <= k < |hits| && hits[k] == f.hit;
  }

  /** A search reports, in walk order, the hits of the files its program
      scans, up to the first error and all of them when none ends on one;
      each reported line matches and its file is admitted. */
  lemma SearchSound(v: Variant, c: Config, root: Node, ignoreFile: Option<IgnoreFile>)
    ensures var r := Search(v, c, root, ignoreFile);
      var h := Hits(Callback(v, c, FilterOf(v, c, ignoreFile)), root, c.searchPath, ".");
      && r.found <= h
      && (!r.failed ==> r.found == h)
      && (forall k :: 0 <= k < |r.found| ==> Reported(v, c, r.found[k]))
  {
    var filter := FilterOf(v, c, ignoreFile);
    var wf := Callback(v, c, filter);
    var r := Search(v, c, root, ignoreFile);
    var h := Hits(wf, root, c.searchPath, ".");
    assert r == WalkNode(wf, root, c.searchPath, ".");
    WalkSound(wf, root, c.searchPath, ".");
    HitsFromScan(wf, root, c.searchPath, ".");
    forall k | 0 <= k < |r.found|
      ensures Reported(v, c, r.found[k])
    {
      assert r.found[k] == h[k];
      CallbackAdmits(v, c, filter, r.found[k]);
    }
  }

  /** A search over a tree that reads cleanly ends without an error and
      reports every hit of every file its program scans. */
  lemma CleanSearchComplete(v: Variant, c: Config, root: Node, ignoreFile: Option<IgnoreFile>)
    requires ReadsCleanly(root)
    ensures var r := Search(v, c, root, ignoreFile);
      !r.failed && r.found == Hits(Callback(v, c, FilterOf(v, c, ignoreFile)), root, c.searchPath, ".")
  {
    var wf := Callback(v, c, FilterOf(v, c, ignoreFile));
    CallbackFailsOnScanErrorOnly(v, c, FilterOf(v, c, ignoreFile));
    CleanTreeNeverFails(wf, root, c.searchPath, ".");
    WalkSound(wf, root, c.searchPath, ".");
  }
}
